=== FILE: README.md ===
# AgriRent Pro session gate, in Dafny

This project models the small, stateable core of the AgriRent Pro equipment-rental console:

- **The client-side session gate.** This is the `auth` record `{isAuthenticated, token, user, role}` of the top-level component. The model covers:
  - how the record is persisted under the four `localStorage` keys `token`, `username`, `role` and `name`;
  - the mount-time restore, `login` and `logout`;
  - the five `<Route>` guards, which decide between rendering a view and redirecting.
- **The login and registration screens.** The model covers their form state, the change handlers, the confirm-password check, the request payloads, and what a settled submission does with the server's answer.
- **The request interceptor.** It attaches `Authorization: Bearer <token>`. The model also covers the method and path of every endpoint wrapper, including the id-interpolated ones.
- **The backend's authentication decisions.** The model covers:
  - the `token_required` guard. Its header parsing uses the `Bearer ` prefix of section 2.1 of RFC 6750 but is stricter: the scheme is case-sensitive, and exactly one space separates it from the credential (`Backend.StrictBearerParsing`);
  - `/api/register`, `/api/login`, and the fallback answer of `/api/ai/chat`.
- **Small decision functions in the views.** These are:
  - the chat widget's season, send, quick-question and send-enabled rules;
  - the audit log's colour classifier and label;
  - the rental list's status filter and empty state.

All of it is written as immutable datatypes and pure functions. Each module has lemmas that relate each operation to an inverse, a preserved invariant or a reference definition:
- restore is the inverse of login;
- logout is idempotent;
- the guard table;
- the redirect cycle for unknown roles;
- the bearer round trip;
- register-then-login;
- split/join, trim and decimal-parse inverses;
- filter idempotence and subsequence.

Modules, one per source file or concern:

| file | module | models |
|---|---|---|
| wrappers.dfy | `Wrappers` | `Option`, `Result`, and JavaScript scalars (`undefined`, `null`, string) with truthiness and `String(v)` |
| strings.dfy | `Strings` | `includes`, Python `split(' ')`, `trim`, global single-character replace, decimal rendering |
| session.dfy | `Session` | the `auth` state, storage, restore/login/logout, the route guards |
| api_client.dfy | `ApiClient` | interceptor, endpoint paths, the client's view of a reply and its error message |
| backend.dfy | `Backend` | `token_required`, register, login, AI-chat fallback |
| login_view.dfy | `LoginView` | the login screen |
| register_view.dfy | `RegisterView` | the registration screen |
| chatbot.dfy | `Chatbot` | the customer chat widget |
| audit_logs.dfy | `AuditLogs` | action colour and label |
| rentals.dfy | `Rentals` | the admin rental filter |
| end_to_end.dfy | `EndToEnd` | properties that connect client and backend |

Modelling choices:
- A JavaScript value that reaches the gate is `Undefined`, `Null` or `Str(s)`.
  - `localStorage.setItem` stores `String(v)`, so an `undefined` argument is stored as the text "undefined".
  - `getItem` of a missing key is `null`.
- The user table is a map from username to row. The password hash and the signed-token library are function-valued parameters.
  - The token library comes with one stated assumption, `Backend.SoundCodec`. It says that a token decodes to its payload exactly while `now < exp`, and that a token is non-empty and has no space. That matches the RFC 7519 compact serialization and the expiry check of an HS256 (section 3.2 of RFC 7518) library.
- An exception the Flask handlers do not catch is `ServerError` (HTTP 500). Examples: a missing JSON key, or a duplicate username hitting the UNIQUE constraint.
- Clocks are parameters: the month for the season, the seconds for token expiry, the timestamps of chat messages.

Behaviour of the code that the model reproduces as written:
- Any non-empty stored role is accepted. There is no fixed role set and no fail-closed fallback.
- Every authenticated role other than `admin` is sent to `/customer`. An unknown role therefore loops `/login` → `/customer` → `/login` and never sees a view (`Session.UnknownRoleNeverRenders`).
- `login` does not check that its arguments are non-empty.
- An absent display name is restored as `null`, not as an empty string.
- The registration form offers an `admin` role to anyone. The model reproduces this.

## Model

| member | source | states |
|---|---|---|
| Session.Restore | client/src/App.jsx:20-35 | the session is authenticated iff token, username and role are stored and non-empty; then it holds exactly the stored values (name `null` when absent); otherwise it is the initial session |
| Session.Login | client/src/App.jsx:37-49 | the session is authenticated with the given token and role and user `{username, name, role}`, so role equals user.role; storage gains exactly the four keys, each holding `String(v)` of its argument (a string verbatim, `undefined` as "undefined", `null` as "null"), other keys untouched |
| Session.Reload | client/src/App.jsx:20-35 | a reload keeps storage and rebuilds the session exactly as the mount-time restore does: consistent, authenticated iff token, username and role are stored and non-empty, holding the stored values |
| Session.Logout | client/src/App.jsx:51-63 | whatever the prior state, the session is the initial one, the four keys are gone and every other stored entry is unchanged |
| Session.LoginThenReload | client/src/App.jsx:22-49 | after login with non-empty token, username, role and a string name, a page reload restores exactly the same gate |
| Session.RestoreIgnoresName | client/src/App.jsx:22-27 | changing or removing the stored name never changes whether restore authenticates |
| Session.LogoutIdempotent | client/src/App.jsx:51-63 | logging out twice equals logging out once, and a reload after logout restores nothing |
| Session.Decide | client/src/App.jsx:70-114 | nothing renders exactly for an unmatched path; a redirect never targets its own route or an unmatched path; the login and register views render only when signed out, each dashboard only for an authenticated session with its role; an authenticated session is sent from `/`, `/login` and `/register` to `/admin` if its role is admin and to `/customer` for every other role; each scoped area sends everyone but its own authenticated role to `/login` |
| Session.UnauthenticatedRoutes | client/src/App.jsx:70-114 | signed out: `/` goes to `/login`, login and register render, both scoped areas go to `/login` |
| Session.AdminRoutes | client/src/App.jsx:70-114 | admin: `/`, `/login`, `/register` go to `/admin`, the admin area renders, the customer area goes to `/login` |
| Session.CustomerRoutes | client/src/App.jsx:70-114 | customer: `/`, `/login`, `/register` go to `/customer`, the customer area renders, the admin area goes to `/login` |
| Session.ScopedAreasIff | client/src/App.jsx:100-114 | the admin area renders iff authenticated with role admin, the customer area iff authenticated with role customer, never both; for gate-produced sessions the login view renders iff signed out |
| Session.SettlesWithinTwoHops | client/src/App.jsx:70-114 | signed out, admin or customer: every routed path reaches a rendered view within two redirects |
| Session.UnknownRoleNeverRenders | client/src/App.jsx:80-114 | an authenticated role outside admin/customer bounces `/login` → `/customer` → `/login` and no number of redirects ever renders a view |
| ApiClient.Intercept | client/src/services/api.js:14-25 | with a non-empty stored token the Authorization header is "Bearer " followed by that token; otherwise the request is untouched; method, path, body and all other headers never change |
| ApiClient.InterceptIdempotent | client/src/services/api.js:15-20 | intercepting an intercepted request changes nothing |
| ApiClient.ErrorMessage | client/src/components/Login.jsx:43-44 | the shown error is the server's non-empty message if it sent one, else the fallback; never empty when the fallback is not |
| ApiClient.MethodOf | client/src/services/api.js:27-47 | PUT exactly for activate, deactivate and return; POST exactly for register, login, add equipment and create rental; GET otherwise |
| ApiClient.PathOf | client/src/services/api.js:27-47 | every path is absolute (starts with '/') and non-trivial; the three id-carrying paths are pinned segment by segment by `ApiClient.IdPaths`; the other eleven are the literal paths of the wrappers and are stated by no contract |
| ApiClient.IdPathSegments | client/src/services/api.js:35-42 | a path `/collection/<id>/action` splits on '/' into exactly the collection, the id numeral and the action |
| ApiClient.IdPaths | client/src/services/api.js:35-42 | activate, deactivate and return paths are `/equipment/{id}/activate`, `/equipment/{id}/deactivate`, `/rentals/{id}/return` segment by segment, and the id reads back from its segment |
| ApiClient.EndpointsDistinct | client/src/services/api.js:27-47 | two different wrappers (including the same wrapper with different ids) never send the same method and path |
| Backend.CredentialAfterBearer | backend/app.py:109-110 | for a header "Bearer " + rest the decoder receives the first space-free field of rest, which is rest itself when it has no space |
| Backend.StrictBearerParsing | backend/app.py:109-110 | "Bearer" followed by two spaces hands the decoder an empty credential, and a lower-case "bearer " header is decoded whole |
| Backend.CredentialWithoutBearer | backend/app.py:109-110 | a header not starting with "Bearer " is handed to the decoder whole |
| Backend.Credential | backend/app.py:109-110 | a header not starting with "Bearer " is handed on whole; after "Bearer " the credential contains no space |
| Backend.Guarded | backend/app.py:101-124 | a rejected request is answered with the guard's own 401 response ("Token is missing" or "Token is invalid") and the handler is not consulted; an authorized one is answered by the handler, called with the decoded username and role |
| Backend.Authorize | backend/app.py:101-124 | a missing or empty header (and nothing else) gives 401 "Token is missing"; a decode failure, or a payload lacking `username` or `role`, gives 401 "Token is invalid"; a payload with both always authorizes with exactly those two values; every other rejection of a present header is "Token is invalid" |
| Backend.RejectedIgnoresHandler | backend/app.py:104-122 | when the guard rejects, the response is 401 and the same whatever the wrapped handler would do |
| Backend.Register | backend/app.py:161-182 | a new row stores the name, the username, hash(password) and the role defaulting to "customer", answering 201; missing fields or a taken username answer 500 and leave the table unchanged |
| Backend.CheckCredentials | backend/app.py:184-204 | credentials pass iff the username exists and the password hashes to its stored hash; a missing username, or a missing password for a known user, is 500; an unknown username or a wrong password is 401 "Invalid credentials" |
| Backend.IssueToken | backend/app.py:206-210 | under the token-library assumption the token is non-empty and has no space, and it decodes to exactly `{username, role}` of the user before issue time + 24 hours and to nothing after |
| Backend.Login | backend/app.py:184-216 | success iff the credentials pass; the answer has exactly token, role and username, the stored user's, and the token carries username and role expiring 24 hours later; every failure is the credential check's answer (500 for a missing key, 401 "Invalid credentials" for an unknown user or a wrong password) |
| Backend.LoginWithName | backend/app.py:206-216 | corrected answer: identical to the written one except that a success also carries the user's name |
| Backend.LoginFailuresIndistinguishable | backend/app.py:200-204 | an unknown username and a wrong password give the identical 401 "Invalid credentials" |
| Backend.RegisterThenLogin | backend/app.py:161-216 | after registering a fresh username, logging in with the same password succeeds with that username and the registered (or default) role |
| Backend.IssuedTokenAuthorizes | backend/app.py:206-210 | a token issued at login passes the guard as a bearer credential iff less than 24 hours have passed, yielding the user's username and role; otherwise "Token is invalid" |
| Backend.ChatAnswer | backend/app.py:233-238 | a missing or empty completion answers "Service unavailable"; any other completion is answered verbatim; the answer is never empty |
| Backend.AiChat | backend/app.py:220-238 | an authorized caller gets 200 with the answer and timestamp when the completion helper returns, "Service unavailable" when the helper got a non-200 status, and 500 when the helper raises; a rejected caller gets exactly the guard's 401 response, with its "Token is missing" or "Token is invalid" message and no answer |
| LoginView.HandleChange | client/src/components/Login.jsx:19-25 | only the named field takes the new value, the other keeps its own, and the error is cleared |
| LoginView.HandleChangeIndependent | client/src/components/Login.jsx:19-25 | edits to different fields commute, and a later edit of a field overrides an earlier one |
| LoginView.RequestBody | client/src/components/Login.jsx:9-33 | the posted body has exactly the keys `username` and `password`, holding the form's two fields |
| LoginView.Submit | client/src/components/Login.jsx:27-48 | on success `login` gets exactly the answer's token, username, role and name and navigation goes to `/admin` for admin, `/customer` otherwise; on failure the gate is untouched, nothing navigates, and the error is the server message or the fallback |
| LoginView.NavigationAgreesWithGuards | client/src/components/Login.jsx:38-42 | after a successful login, the navigation target renders the admin or customer dashboard for those roles, and any other role is redirected to `/login` |
| RegisterView.HandleChange | client/src/components/Register.jsx:21-28 | only the named field changes, and both error and success are cleared |
| RegisterView.Payload | client/src/components/Register.jsx:43-44 | the payload is the form minus confirmPassword, with name, username, password and role unchanged |
| RegisterView.Validate | client/src/components/Register.jsx:36-44 | the passwords differ iff the result is "Passwords do not match"; otherwise it is the payload |
| RegisterView.Submit | client/src/components/Register.jsx:30-55 | mismatching passwords post nothing and show the mismatch error; otherwise the payload is posted and success shows the banner and schedules `/login`, failure shows the server message or the fallback |
| RegisterView.FreshFormIsCustomer | client/src/components/Register.jsx:8-14 | the initial form posts role "customer" unless the role is changed |
| Chatbot.SeasonOf | client/src/components/customer/AIChatbot.jsx:75-81 | the season is winter exactly for months before February or after November |
| Chatbot.SeasonMonths | client/src/components/customer/AIChatbot.jsx:75-81 | months 2–5 are spring, 6–9 monsoon, 10–11 autumn, 12 and 1 winter, each in both directions |
| Chatbot.Initial | client/src/components/customer/AIChatbot.jsx:11-17 | the list starts with exactly one bot greeting; the input is empty and nothing loads |
| Chatbot.SendStart | client/src/components/customer/AIChatbot.jsx:44-55 | a blank input changes nothing; otherwise the untrimmed input is appended as a user message, the input cleared and loading started |
| Chatbot.SendFinish | client/src/components/customer/AIChatbot.jsx:65-72 | the answer is appended as a bot message and loading stops |
| Chatbot.Send | client/src/components/customer/AIChatbot.jsx:44-73 | a send never loses or reorders earlier messages, and it ends not loading unless it changed nothing |
| Chatbot.SendAppendsTwo | client/src/components/customer/AIChatbot.jsx:44-73 | a non-blank send grows the list by exactly two, the user message and then the bot message, keeps all earlier messages and leaves the input empty |
| Chatbot.SendEnabledIff | client/src/components/customer/AIChatbot.jsx:197 | the send button is enabled iff nothing loads and the input has a non-whitespace character |
| Chatbot.QuickQuestionsOnlyBeforeFirstSend | client/src/components/customer/AIChatbot.jsx:171 | quick questions show at first and never after a non-blank send |
| Chatbot.PickQuickQuestion | client/src/components/customer/AIChatbot.jsx:98-100 | picking puts the chosen listed question in the input and changes neither the messages nor the loading flag |
| Chatbot.QuickQuestionEnablesSend | client/src/components/customer/AIChatbot.jsx:90-100 | picking any quick question while idle enables sending |
| AuditLogs.ActionColor | client/src/components/admin/AuditLogs.jsx:25-33 | an action is coloured 'warning' only if it contains FAIL, so no action reaches the warning colour through DEACTIVATED alone |
| AuditLogs.Label | client/src/components/admin/AuditLogs.jsx:63 | the label has the action's length and no underscore |
| AuditLogs.DeactivatedContainsActivated | client/src/components/admin/AuditLogs.jsx:26-30 | every action containing DEACTIVATED contains ACTIVATED |
| AuditLogs.ActionColorBySubstrings | client/src/components/admin/AuditLogs.jsx:25-33 | success iff a success word occurs; warning iff FAIL occurs and no success word does; info iff none of SUCCESS, ADDED, ACTIVATED, FAIL occur; every DEACTIVATED action is success |
| AuditLogs.IntendedColorDiffersOnlyOnDeactivation | client/src/components/admin/AuditLogs.jsx:25-33 | corrected colouring: every DEACTIVATED action is a warning, and every other action keeps the written colour |
| AuditLogs.LabelShape | client/src/components/admin/AuditLogs.jsx:63 | the label has the action's length, no underscore, spaces where underscores were, every other character in place |
| Rentals.Matching | client/src/components/admin/Rentals.jsx:26-29 | every kept rental has the status, and each rental with it keeps its multiplicity, the rest none |
| Rentals.Filtered | client/src/components/admin/Rentals.jsx:26-29 | 'all' returns the list unchanged; any other filter returns exactly the rentals with that status |
| Rentals.FilteredIsSubsequence | client/src/components/admin/Rentals.jsx:26-29 | the filtered list is an order-preserving subsequence of the input |
| Rentals.FilteredIdempotent | client/src/components/admin/Rentals.jsx:26-29 | filtering the filtered list again with the same filter gives the same list |
| Rentals.DisjointTabsBounded | client/src/components/admin/Rentals.jsx:26-29 | two different status filters together show no more rentals than 'all' |
| Rentals.RentedPlusReturnedAtMostAll | client/src/components/admin/Rentals.jsx:51-70 | the 'rented' and 'returned' tabs together show at most the 'all' tab |
| Rentals.EmptyState | client/src/components/admin/Rentals.jsx:118 | the empty state shows iff the filter is not 'all' and no rental has the filtered status, or the list is empty |
| Rentals.EmptyStateIff | client/src/components/admin/Rentals.jsx:9-118 | the empty state shows iff no rental has the filtered status, or for 'all' iff there are no rentals; on the opening tab exactly when there are no rentals |
| Strings.ContainsIffOccurs | client/src/components/admin/AuditLogs.jsx:26-30 | the scanning `includes` is true iff the substring occurs at some index |
| Strings.Split | backend/app.py:110 | `split(' ')` yields at least one field, two or more when the separator occurs, and no field contains the separator |
| Strings.JoinSplit | backend/app.py:110 | joining the fields of a split with the separator gives back the string |
| Strings.SplitWithoutSeparator | backend/app.py:110 | a string without the separator splits into itself alone |
| Strings.SplitAfterHead | backend/app.py:110 | a separator-free head followed by the separator is split off as the first field |
| Strings.TrimStart | client/src/components/customer/AIChatbot.jsx:45 | the result is a suffix that is empty or starts with non-whitespace, and only whitespace was removed |
| Strings.TrimEnd | client/src/components/customer/AIChatbot.jsx:45 | the result is a prefix that is empty or ends with non-whitespace, and only whitespace was removed |
| Strings.TrimEmptyIffBlank | client/src/components/customer/AIChatbot.jsx:45 | trimming gives the empty string iff every character is whitespace |
| Strings.ReplaceAll | client/src/components/admin/AuditLogs.jsx:63 | same length, each matching character replaced and every other character kept |
| Strings.Decimal | client/src/services/api.js:35-36 | the rendered id is a non-empty string of digits with no leading zero (only 0 starts with '0') |
| Strings.ParseDecimalInverse | client/src/services/api.js:35-42 | reading a rendered id back gives the id |
| EndToEnd.BearerRoundTrip | client/src/services/api.js:18 | the backend decodes the first space-free field of the stored token, which is the whole token when it has no space |
| EndToEnd.NoTokenNoCredential | client/src/services/api.js:17 | without a stored token a wrapper's request is sent with no Authorization header, and the guard answers the headers that arrive with "Token is missing" |
| EndToEnd.SignInSurvivesReload | client/src/components/Login.jsx:34-36 | with the corrected login answer, signing in gives the user's session, a reload restores it unchanged, and the stored token passes the guard with the user's identity for 24 hours |
| EndToEnd.SignInChangesNameOnReload | backend/app.py:212-216 | with the login answer as written, the session's name is `undefined`, storage holds "undefined", and a reload yields a different session |
| EndToEnd.RegisterThenSignIn | client/src/components/Register.jsx:43-44 | a form with matching passwords and a fresh username stores hash(password) and the form's role, and signing in then succeeds with that role |

## Findings

| source | as written | input that shows it | evidently intended | confidence | as-written member | corrected member |
|---|---|---|---|---|---|---|
| backend/app.py:212-216 | the login answer has token, role and username but no `name`, although the sign-in screen reads `name` from it and the dashboards show `user.name` | any successful sign-in, followed by a page reload | the answer includes the user's stored name, so a reload restores the session the sign-in produced | high, not executed | EndToEnd.SignInChangesNameOnReload | EndToEnd.SignInSurvivesReload |
| client/src/components/admin/AuditLogs.jsx:26-30 | the DEACTIVATED test of the warning branch can never fire, because DEACTIVATED contains ACTIVATED, which the success branch tests first | an action such as `EQUIPMENT_DEACTIVATED` is coloured 'success' | a deactivation is coloured 'warning' | medium, not executed | AuditLogs.ActionColorBySubstrings | AuditLogs.IntendedColorDiffersOnlyOnDeactivation |

More on the first finding:
- The name is `undefined` in memory right after sign-in.
- `localStorage.setItem` stores it as the text "undefined".
- After a reload, the dashboards show "undefined" and the avatar letter "U".
- `Backend.LoginWithName` is the corrected endpoint. The end-to-end sign-in property is proved against it.

## Left out

- Signed tokens (RFC 7519, HS256 per section 3.2 of RFC 7518) and SHA-256 password hashing: these are parameters, with only the assumption `Backend.SoundCodec` about the token library.
- The PostgreSQL connection, table setup and `log_action`: these are I/O. The `users` table is a map keyed by username.
- The `LOCK_DURATION`, `failed_attempts` and `lock_time` declarations: no code uses them, so there is no lockout behaviour to model.
- The external completion call and its `<think>`-block removal: they are network I/O. Its outcome (content, a non-200 status that returns `None`, or a raised exception) is a parameter of `Backend.AiChat`.
- Backend.AiChat: a missing or non-object JSON body raises in `data.get` and gives a 500. This is not modelled, because bodies are modelled as string maps.
- The prompt text built for the completion and the `question`/`context` request fields: the model fixes the answer by the completion alone.
- The client's AI service wrappers, including the chat client's own fallback text: they are network glue. The answer text is a parameter of `Chatbot.SendFinish`.
- The order of React effects and renders: restore, login, logout, navigation and sends are discrete steps.
  - `Session.Restore` models the one mount-time run, when the state is still the initial one.
- Session.Restore: it returns the initial session when storage does not authenticate. The component instead leaves the current state unchanged, which is the initial state at mount.
- The intermediate `loading = true` render of the login and registration screens: only the settled state is modelled.
- The two-second delay before the registration screen goes to `/login`: it is recorded as a scheduled navigation.
- Matching of URL strings to route patterns (case, trailing slashes): routes are an enumerated category. A path matching no pattern renders nothing.
- JSON values other than strings (numbers, `null`, nested objects) in request and response bodies, and a request without a JSON body.
- Strings.Decimal: it renders any natural number in plain digits. JavaScript switches to exponent notation from 10^21 on, and ids never get that large.
- Floating-point money (totals, `toFixed`), charts, icons, CSS, timers, and the fetch-and-render screens (equipment, browsing, my rentals, overviews, reports, recommendations, dashboards).
- The empty-state message text of the rental list, and the formatting of timestamps.
- Synchronisation of storage across browser tabs.
- The client's base URL (host and `/api` prefix): paths are modelled relative to it, and the backend's route table is not modelled.

=== FILE: api_client.dfy ===
/**
 * The HTTP client of the single-page application: the request interceptor
 * that attaches the stored credential to every outgoing request, and the
 * method and path of every endpoint wrapper.
 */
module ApiClient {
  import opened Wrappers
  import opened Strings
  import Session

  datatype Method = Get | Post | Put

  /** An outgoing request as the interceptor sees it. */
  datatype Config = Config(verb: Method, path: string, headers: map<string, string>, body: map<string, string>)

  /** The headers of the client instance before any interceptor runs. */
  const DefaultHeaders: map<string, string> := map["Content-Type" := "application/json"]

  /** The value the interceptor puts in the `Authorization` header for a credential. */
  function BearerHeader(token: string): string {
    "Bearer " + token
  }

  /**
   * The request interceptor: when storage holds a non-empty token, set the
   * `Authorization` header to `Bearer <token>`; otherwise leave the request
   * alone. Nothing but that one header ever changes.
   */
  function Intercept(c: Config, st: Session.Storage): (r: Config)
    ensures r.verb == c.verb && r.path == c.path && r.body == c.body
    ensures forall h :: h in c.headers && h != "Authorization" ==> h in r.headers && r.headers[h] == c.headers[h]
    ensures r.headers.Keys - {"Authorization"} == c.headers.Keys - {"Authorization"}
    ensures Session.StoredNonEmpty(st, Session.TokenKey) ==>
      "Authorization" in r.headers && IsPrefix("Bearer ", r.headers["Authorization"])
      && r.headers["Authorization"][|"Bearer "|..] == st[Session.TokenKey]
    ensures !Session.StoredNonEmpty(st, Session.TokenKey) ==> r == c
  {
    var token := Session.GetItem(st, Session.TokenKey);
    if token.Truthy() then c.(headers := c.headers["Authorization" := BearerHeader(token.s)]) else c
  }

  /**
   * What an awaited request yields: a response with its status and JSON
   * data (an empty object when the body is not JSON), or no response at all.
   */
  datatype Reply = Response(status: nat, data: map<string, JsValue>) | NoResponse

  /** The client resolves a request for a 2xx status and rejects it otherwise. */
  predicate Succeeded(r: Reply) {
    r.Response? && 200 <= r.status < 300
  }

  /**
   * `err.response?.data?.message || fallback`: the server's message when it
   * sent a non-empty one, otherwise the fallback.
   */
  function ErrorMessage(r: Reply, fallback: string): (m: string)
    ensures fallback != "" ==> m != ""
    ensures m == fallback || (r.Response? && Field(r.data, "message") == Str(m))
    ensures r.Response? && Field(r.data, "message").Truthy() ==> m == Field(r.data, "message").s
  {
    if r.Response? && Field(r.data, "message").Truthy() then Field(r.data, "message").s else fallback
  }

  /** Running the interceptor a second time changes nothing. */
  lemma InterceptIdempotent(c: Config, st: Session.Storage)
    ensures Intercept(Intercept(c, st), st) == Intercept(c, st)
  {
  }

  // ---------------------------------------------------------------------
  // Endpoint wrappers
  // ---------------------------------------------------------------------

  /** One constructor per exported wrapper; `id` is the interpolated record id. */
  datatype Endpoint =
    | RegisterUser | LoginUser
    | ListEquipment | ListAllEquipment | AddEquipment
    | DeactivateEquipment(id: nat) | ActivateEquipment(id: nat)
    | CreateRental | MyRentals | AllRentals | ReturnRental(id: nat)
    | RevenueReport | AuditLogs | DashboardStats

  /** The HTTP method of a wrapper: PUT for the three id actions, POST for the four creations, GET otherwise. */
  function MethodOf(e: Endpoint): (r: Method)
    ensures r == Put <==> e.DeactivateEquipment? || e.ActivateEquipment? || e.ReturnRental?
    ensures r == Post <==> e.RegisterUser? || e.LoginUser? || e.AddEquipment? || e.CreateRental?
  {
    match e
    case RegisterUser | LoginUser | AddEquipment | CreateRental => Post
    case DeactivateEquipment(_) | ActivateEquipment(_) | ReturnRental(_) => Put
    case _ => Get
  }

  /** The path a wrapper requests, relative to the base URL; an id is rendered in decimal. */
  function PathOf(e: Endpoint): (r: string)
    ensures |r| >= 2 && r[0] == '/'
  {
    match e
    case RegisterUser => "/register"
    case LoginUser => "/login"
    case ListEquipment => "/equipment"
    case ListAllEquipment => "/equipment/all"
    case AddEquipment => "/equipment"
    case DeactivateEquipment(id) => "/equipment/" + Decimal(id) + "/deactivate"
    case ActivateEquipment(id) => "/equipment/" + Decimal(id) + "/activate"
    case CreateRental => "/rentals"
    case MyRentals => "/rentals/my"
    case AllRentals => "/rentals"
    case ReturnRental(id) => "/rentals/" + Decimal(id) + "/return"
    case RevenueReport => "/reports/revenue"
    case AuditLogs => "/audit-logs"
    case DashboardStats => "/stats/dashboard"
  }

  /** The request a wrapper hands to the interceptor. */
  function Request(e: Endpoint, body: map<string, string>): Config {
    Config(MethodOf(e), PathOf(e), DefaultHeaders, body)
  }

  /** A path `/collection/<id>/action` splits on '/' into its collection, the id's numeral and the action. */
  lemma {:induction false} IdPathSegments(collection: string, id: nat, action: string)
    requires '/' !in collection && '/' !in action
    ensures Split("/" + collection + "/" + Decimal(id) + "/" + action, '/') == ["", collection, Decimal(id), action]
  {
    var d := Decimal(id);
    assert '/' !in d by {
      forall i | 0 <= i < |d| ensures d[i] != '/' {
        assert IsDigit(d[i]);
      }
    }
    var tail := d + ['/'] + action;
    var mid := collection + ['/'] + tail;
    assert "/" + collection + "/" + d + "/" + action == "" + ['/'] + mid;
    SplitAfterHead("", '/', mid);
    SplitAfterHead(collection, '/', tail);
    SplitAfterHead(d, '/', action);
    SplitWithoutSeparator(action, '/');
  }

  /** The three id-carrying paths, segment by segment; the id is read back from its segment. */
  lemma IdPaths(id: nat)
    ensures Split(PathOf(ActivateEquipment(id)), '/') == ["", "equipment", Decimal(id), "activate"]
    ensures Split(PathOf(DeactivateEquipment(id)), '/') == ["", "equipment", Decimal(id), "deactivate"]
    ensures Split(PathOf(ReturnRental(id)), '/') == ["", "rentals", Decimal(id), "return"]
    ensures ParseDecimal(Decimal(id)) == id
  {
    var d := Decimal(id);
    assert PathOf(ActivateEquipment(id)) == "/" + "equipment" + "/" + d + "/" + "activate";
    assert PathOf(DeactivateEquipment(id)) == "/" + "equipment" + "/" + d + "/" + "deactivate";
    assert PathOf(ReturnRental(id)) == "/" + "rentals" + "/" + d + "/" + "return";
    IdPathSegments("equipment", id, "activate");
    IdPathSegments("equipment", id, "deactivate");
    IdPathSegments("rentals", id, "return");
    ParseDecimalInverse(id);
  }

  /** No two wrappers send the same request line: different endpoints differ in method or path. */
  lemma EndpointsDistinct(e1: Endpoint, e2: Endpoint)
    requires e1 != e2
    ensures MethodOf(e1) != MethodOf(e2) || PathOf(e1) != PathOf(e2)
  {
    if e1.DeactivateEquipment? || e1.ActivateEquipment? || e1.ReturnRental? {
      if e2.DeactivateEquipment? || e2.ActivateEquipment? || e2.ReturnRental? {
        IdPaths(e1.id);
        IdPaths(e2.id);
      }
    }
  }
}

=== FILE: audit_logs.dfy ===
/**
 * The audit-log screen: the colour class chosen for an action by substring
 * priority, and the label shown for an action.
 */
module AuditLogs {
  import opened Strings

  datatype Color = Success | Warning | Info

  /**
   * `getActionColor` as written: SUCCESS, ADDED or ACTIVATED anywhere in
   * the action give 'success'; otherwise FAIL or DEACTIVATED give
   * 'warning'; anything else is 'info'.
   */
  function ActionColor(action: string): (r: Color)
    ensures r == Warning ==> Contains(action, "FAIL")
  {
    DeactivatedContainsActivated(action);
    if Contains(action, "SUCCESS") || Contains(action, "ADDED") || Contains(action, "ACTIVATED") then Success
    else if Contains(action, "FAIL") || Contains(action, "DEACTIVATED") then Warning
    else Info
  }

  /** Every action that mentions DEACTIVATED also mentions ACTIVATED, two characters further on. */
  lemma DeactivatedContainsActivated(action: string)
    ensures Contains(action, "DEACTIVATED") ==> Contains(action, "ACTIVATED")
  {
    ContainsIffOccurs(action, "DEACTIVATED");
    ContainsIffOccurs(action, "ACTIVATED");
    if Contains(action, "DEACTIVATED") {
      var i :| OccursAt(action, "DEACTIVATED", i);
      OccursAtSuffix(action, "DEACTIVATED", i, 2);
      assert "DEACTIVATED"[2..] == "ACTIVATED";
    }
  }

  /**
   * The colour by substrings: 'success' for any success word; 'warning'
   * exactly when FAIL occurs and no success word does (the DEACTIVATED
   * test can never fire); 'info' when none of the four words occurs.
   * Every DEACTIVATED action is therefore coloured 'success'.
   */
  lemma ActionColorBySubstrings(action: string)
    ensures ActionColor(action) == Success <==>
      Contains(action, "SUCCESS") || Contains(action, "ADDED") || Contains(action, "ACTIVATED")
    ensures ActionColor(action) == Warning <==>
      Contains(action, "FAIL")
      && !Contains(action, "SUCCESS") && !Contains(action, "ADDED") && !Contains(action, "ACTIVATED")
    ensures ActionColor(action) == Info <==>
      !Contains(action, "SUCCESS") && !Contains(action, "ADDED") && !Contains(action, "ACTIVATED")
      && !Contains(action, "FAIL")
    ensures Contains(action, "DEACTIVATED") ==> ActionColor(action) == Success
  {
    DeactivatedContainsActivated(action);
  }

  /**
   * The colouring evidently intended: a deactivation is a warning. The
   * DEACTIVATED test is moved ahead of the success words; every other
   * action keeps its colour.
   */
  function IntendedActionColor(action: string): Color {
    if Contains(action, "DEACTIVATED") then Warning
    else if Contains(action, "SUCCESS") || Contains(action, "ADDED") || Contains(action, "ACTIVATED") then Success
    else if Contains(action, "FAIL") then Warning
    else Info
  }

  /** The intended colouring warns on every deactivation and agrees with the written one everywhere else. */
  lemma IntendedColorDiffersOnlyOnDeactivation(action: string)
    ensures Contains(action, "DEACTIVATED") ==> IntendedActionColor(action) == Warning
    ensures Contains(action, "DEACTIVATED") ==> ActionColor(action) != IntendedActionColor(action)
    ensures !Contains(action, "DEACTIVATED") ==> ActionColor(action) == IntendedActionColor(action)
  {
    DeactivatedContainsActivated(action);
  }

  /** The label shown for an action: every underscore becomes a space. */
  function Label(action: string): (r: string)
    ensures |r| == |action| && '_' !in r
  {
    ReplaceAll(action, '_', ' ')
  }

  /** A label has the action's length, no underscore, and every other character in place. */
  lemma LabelShape(action: string)
    ensures |Label(action)| == |action|
    ensures '_' !in Label(action)
    ensures forall i :: 0 <= i < |action| && action[i] != '_' ==> Label(action)[i] == action[i]
    ensures forall i :: 0 <= i < |action| && action[i] == '_' ==> Label(action)[i] == ' '
  {
  }
}

=== FILE: backend.dfy ===
/**
 * The authentication decisions of the Flask backend: the `token_required`
 * guard, `/api/register`, `/api/login`, and the fallback answer of
 * `/api/ai/chat`. The database is a map from username to user row;
 * password hashing and the signed token format are function-valued
 * parameters, so nothing here depends on how SHA-256 or HS256 work.
 */
module Backend {
  import opened Wrappers
  import opened Strings

  /** A JSON request or response object whose values are strings. */
  type Body = map<string, string>

  /** An HTTP response: a JSON object with a status, or an uncaught exception (status 500). */
  datatype Response = Json(status: nat, body: Body) | ServerError

  /** A row of the `users` table (the unused lockout columns are not modelled). */
  datatype UserRecord = UserRecord(name: string, username: string, password: string, role: string)

  /** The `users` table, keyed by its UNIQUE `username` column. */
  type Users = map<string, UserRecord>

  /** Every row is stored under its own username. */
  ghost predicate WellKeyed(users: Users) {
    forall k :: k in users ==> users[k].username == k
  }

  /**
   * The signed-token library with the server's secret key bound in:
   * `encode(claims, exp)` signs a payload that expires at second `exp`,
   * and `decode(token, now)` verifies a token at second `now`, yielding its
   * payload or nothing (a bad signature, an expired token, garbage).
   */
  datatype TokenCodec = TokenCodec(
    encode: (map<string, string>, int) -> string,
    decode: (string, int) -> Option<map<string, string>>)

  /**
   * What the model relies on from the library: a token it signed decodes
   * to its payload exactly while `now < exp`, and a signed token (three
   * base64url segments joined by dots) is non-empty and contains no space.
   */
  ghost predicate SoundCodec(c: TokenCodec) {
    && (forall claims, exp, now :: c.decode(c.encode(claims, exp), now) == (if now < exp then Some(claims) else None))
    && (forall claims, exp :: ' ' !in c.encode(claims, exp) && c.encode(claims, exp) != "")
  }

  /** A token issued at login stays valid for 24 hours (in seconds). */
  const TokenLifetime: int := 24 * 60 * 60

  function Unauthorized(message: string): Response {
    Json(401, map["message" := message])
  }

  // ---------------------------------------------------------------------
  // token_required
  // ---------------------------------------------------------------------

  /** The outcome of the guard: reject with a response, or pass the caller's identity on. */
  datatype AuthResult = Rejected(response: Response) | Authorized(username: string, role: string)

  /**
   * The string handed to the decoder: a header starting with "Bearer " is
   * cut to its second space-separated field, any other header is used whole.
   */
  function Credential(header: string): (r: string)
    ensures !IsPrefix("Bearer ", header) ==> r == header
    ensures IsPrefix("Bearer ", header) ==> ' ' !in r
  {
    if IsPrefix("Bearer ", header) then
      assert header[6] == "Bearer "[6];
      Split(header, ' ')[1]
    else header
  }

  /**
   * After "Bearer " the decoder sees the first space-free field of the
   * rest of the header; for a credential without spaces that is the
   * credential itself.
   */
  lemma CredentialAfterBearer(rest: string)
    ensures Credential("Bearer " + rest) == Split(rest, ' ')[0]
    ensures ' ' !in rest ==> Credential("Bearer " + rest) == rest
  {
    var header := "Bearer " + rest;
    assert IsPrefix("Bearer ", header) by {
      assert header[..7] == "Bearer ";
    }
    assert header == "Bearer" + [' '] + rest;
    SplitAfterHead("Bearer", ' ', rest);
    if ' ' !in rest {
      SplitWithoutSeparator(rest, ' ');
    }
  }

  /**
   * The parsing is stricter than the `Bearer` scheme of section 2.1 of
   * RFC 6750: a second space before the credential hands the decoder an
   * empty string, and the scheme name is matched case-sensitively, so a
   * lower-case `bearer` header is decoded whole.
   */
  lemma {:induction false} StrictBearerParsing(t: string)
    ensures Credential("Bearer  " + t) == ""
    ensures Credential("bearer " + t) == "bearer " + t
  {
    var header := "Bearer  " + t;
    assert IsPrefix("Bearer ", header) by {
      assert header[..7] == "Bearer ";
    }
    assert header == "Bearer" + [' '] + ("" + [' '] + t);
    SplitAfterHead("Bearer", ' ', "" + [' '] + t);
    SplitAfterHead("", ' ', t);
    var lower := "bearer " + t;
    assert !IsPrefix("Bearer ", lower) by {
      assert lower[0] == 'b';
    }
  }

  /** A header that does not start with "Bearer " is decoded as it stands. */
  lemma CredentialWithoutBearer(header: string)
    requires !IsPrefix("Bearer ", header)
    ensures Credential(header) == header
  {
  }

  /**
   * `token_required`: a missing or empty header is "Token is missing"; a
   * credential the decoder rejects, or whose payload lacks `username` or
   * `role`, is "Token is invalid"; otherwise the payload's username and
   * role are passed on. Both rejections are 401.
   */
  function Authorize(header: Option<string>, codec: TokenCodec, now: int): (r: AuthResult)
    ensures (header == None || header == Some("")) <==> r == Rejected(Unauthorized("Token is missing"))
    ensures r.Rejected? ==> r.response.Json? && r.response.status == 401
    ensures r.Authorized? ==>
      exists claims :: codec.decode(Credential(header.value), now) == Some(claims)
        && "username" in claims && "role" in claims
        && r.username == claims["username"] && r.role == claims["role"]
    ensures header.Some? && header.value != "" && codec.decode(Credential(header.value), now).None? ==>
      r == Rejected(Unauthorized("Token is invalid"))
    ensures header.Some? && header.value != "" && codec.decode(Credential(header.value), now).Some? ==>
      var claims := codec.decode(Credential(header.value), now).value;
      if "username" in claims && "role" in claims then r == Authorized(claims["username"], claims["role"])
      else r == Rejected(Unauthorized("Token is invalid"))
    ensures r.Rejected? && header.Some? && header.value != "" ==> r == Rejected(Unauthorized("Token is invalid"))
  {
    if header.None? || header.value == "" then
      Rejected(Unauthorized("Token is missing"))
    else
      assert Unauthorized("Token is invalid").body["message"] != Unauthorized("Token is missing").body["message"];
      match codec.decode(Credential(header.value), now)
      case None => Rejected(Unauthorized("Token is invalid"))
      case Some(claims) =>
        if "username" in claims && "role" in claims then Authorized(claims["username"], claims["role"])
        else Rejected(Unauthorized("Token is invalid"))
  }

  /** A route wrapped in `token_required`: the handler runs only for an authorized caller. */
  function Guarded(header: Option<string>, codec: TokenCodec, now: int, handler: (string, string) -> Response): (r: Response)
    ensures Authorize(header, codec, now).Rejected? ==> r.Json? && r.status == 401
    ensures Authorize(header, codec, now).Rejected? ==> r == Authorize(header, codec, now).response
    ensures Authorize(header, codec, now).Authorized? ==>
      r == handler(Authorize(header, codec, now).username, Authorize(header, codec, now).role)
  {
    match Authorize(header, codec, now)
    case Rejected(response) => response
    case Authorized(username, role) => handler(username, role)
  }

  /** A rejected request never reaches the handler: its response is the same whatever the handler does. */
  lemma RejectedIgnoresHandler(header: Option<string>, codec: TokenCodec, now: int,
                               f: (string, string) -> Response, g: (string, string) -> Response)
    requires Authorize(header, codec, now).Rejected?
    ensures Guarded(header, codec, now, f) == Guarded(header, codec, now, g)
    ensures Guarded(header, codec, now, f).Json? && Guarded(header, codec, now, f).status == 401
  {
  }

  // ---------------------------------------------------------------------
  // /api/register and /api/login
  // ---------------------------------------------------------------------

  /** The new table and the response of a registration request. */
  datatype RegisterResult = RegisterResult(response: Response, users: Users)

  /**
   * `/api/register`: insert `(name, username, hash(password), role)` with
   * the role defaulting to "customer". A missing name, username or password
   * raises, and so does a username already in the table (the UNIQUE
   * constraint); both leave the table as it was and answer 500.
   */
  function Register(body: Body, users: Users, hash: string -> string): (r: RegisterResult)
    ensures r.response.ServerError? <==>
      "name" !in body || "username" !in body || "password" !in body || body["username"] in users
    ensures r.response.ServerError? ==> r.users == users
    ensures r.response.Json? ==>
      && r.response == Json(201, map["message" := "Registered successfully"])
      && r.users.Keys == users.Keys + {body["username"]}
      && body["username"] !in users
      && r.users[body["username"]].password == hash(body["password"])
      && r.users[body["username"]].role == (if "role" in body then body["role"] else "customer")
      && r.users[body["username"]].name == body["name"]
      && (forall k :: k in users ==> r.users[k] == users[k])
    ensures WellKeyed(users) ==> WellKeyed(r.users)
  {
    if "name" !in body || "username" !in body || "password" !in body then
      RegisterResult(ServerError, users)
    else
      var username := body["username"];
      var role := if "role" in body then body["role"] else "customer";
      if username in users then
        RegisterResult(ServerError, users)
      else
        var row := UserRecord(body["name"], username, hash(body["password"]), role);
        RegisterResult(Json(201, map["message" := "Registered successfully"]), users[username := row])
  }

  /**
   * The credential check shared by both login variants: the row of the
   * given username when the password hashes to its stored hash, or the
   * response that ends the request.
   */
  function CheckCredentials(body: Body, users: Users, hash: string -> string): (r: Result<UserRecord, Response>)
    ensures r.Ok? <==>
      "username" in body && body["username"] in users && "password" in body
      && users[body["username"]].password == hash(body["password"])
    ensures r.Ok? ==> r.value == users[body["username"]]
    ensures r.Err? ==> r.error == ServerError || r.error == Unauthorized("Invalid credentials")
    ensures "username" !in body ==> r == Err(ServerError)
    ensures "username" in body && body["username"] !in users ==> r == Err(Unauthorized("Invalid credentials"))
    ensures "username" in body && body["username"] in users && "password" !in body ==> r == Err(ServerError)
    ensures ("username" in body && body["username"] in users && "password" in body
             && users[body["username"]].password != hash(body["password"]))
            ==> r == Err(Unauthorized("Invalid credentials"))
  {
    if "username" !in body then Err(ServerError)
    else if body["username"] !in users then Err(Unauthorized("Invalid credentials"))
    else
      var user := users[body["username"]];
      if "password" !in body then Err(ServerError)
      else if user.password != hash(body["password"]) then Err(Unauthorized("Invalid credentials"))
      else Ok(user)
  }

  /** The token issued at second `now` for a user: username and role, expiring a day later. */
  function IssueToken(user: UserRecord, codec: TokenCodec, now: int): (token: string)
    ensures SoundCodec(codec) ==> token != "" && ' ' !in token
    ensures SoundCodec(codec) ==>
      forall t :: codec.decode(token, t)
        == (if t < now + TokenLifetime then Some(map["username" := user.username, "role" := user.role]) else None)
  {
    codec.encode(map["username" := user.username, "role" := user.role], now + TokenLifetime)
  }

  /** `/api/login` as written: answers token, role and username, but not the user's name. */
  function Login(body: Body, users: Users, hash: string -> string, codec: TokenCodec, now: int): (r: Response)
    ensures r.Json? && r.status == 200 <==> CheckCredentials(body, users, hash).Ok?
    ensures r.Json? && r.status == 200 ==>
      var user := users[body["username"]];
      && r.body.Keys == {"token", "role", "username"}
      && r.body["username"] == user.username && r.body["role"] == user.role
      && r.body["token"] == IssueToken(user, codec, now)
    ensures CheckCredentials(body, users, hash).Err? ==> r == CheckCredentials(body, users, hash).error
  {
    match CheckCredentials(body, users, hash)
    case Err(response) => response
    case Ok(user) =>
      Json(200, map["token" := IssueToken(user, codec, now), "role" := user.role, "username" := user.username])
  }

  /** `/api/login` as evidently intended: the same answer plus the user's display name. */
  function LoginWithName(body: Body, users: Users, hash: string -> string, codec: TokenCodec, now: int): (r: Response)
    ensures r.Json? && r.status == 200 <==> CheckCredentials(body, users, hash).Ok?
    ensures r.Json? && r.status == 200 ==>
      var user := users[body["username"]];
      && r.body == Login(body, users, hash, codec, now).body["name" := user.name]
    ensures !(r.Json? && r.status == 200) ==> r == Login(body, users, hash, codec, now)
  {
    match CheckCredentials(body, users, hash)
    case Err(response) => response
    case Ok(user) =>
      Json(200, map["token" := IssueToken(user, codec, now), "role" := user.role,
                    "username" := user.username, "name" := user.name])
  }

  /**
   * An unknown username and a wrong password get the very same answer, so
   * a caller cannot tell which one happened.
   */
  lemma LoginFailuresIndistinguishable(users: Users, hash: string -> string, codec: TokenCodec, now: int,
                                       unknown: string, known: string, password: string, wrong: string)
    requires unknown !in users
    requires known in users && users[known].password != hash(wrong)
    ensures Login(map["username" := unknown, "password" := password], users, hash, codec, now)
         == Login(map["username" := known, "password" := wrong], users, hash, codec, now)
    ensures Login(map["username" := unknown, "password" := password], users, hash, codec, now)
         == Unauthorized("Invalid credentials")
  {
  }

  /**
   * Whoever registers can then log in with the same password: the answer
   * is the registered username and role (defaulting to "customer").
   */
  lemma RegisterThenLogin(body: Body, users: Users, hash: string -> string, codec: TokenCodec, now: int)
    requires WellKeyed(users)
    requires "name" in body && "username" in body && "password" in body
    requires body["username"] !in users
    ensures var after := Register(body, users, hash).users;
      var r := Login(map["username" := body["username"], "password" := body["password"]], after, hash, codec, now);
      && r.Json? && r.status == 200
      && r.body["username"] == body["username"]
      && r.body["role"] == (if "role" in body then body["role"] else "customer")
  {
    var after := Register(body, users, hash).users;
    var req := map["username" := body["username"], "password" := body["password"]];
    assert CheckCredentials(req, after, hash).Ok?;
  }

  /**
   * A token issued at login passes `token_required` as a bearer credential
   * exactly during the 24 hours after issue, and then yields the user's
   * username and role.
   */
  lemma IssuedTokenAuthorizes(user: UserRecord, codec: TokenCodec, issued: int, now: int)
    requires SoundCodec(codec)
    ensures var r := Authorize(Some("Bearer " + IssueToken(user, codec, issued)), codec, now);
      (r.Authorized? <==> now < issued + TokenLifetime)
      && (r.Authorized? ==> r.username == user.username && r.role == user.role)
      && (!r.Authorized? ==> r == Rejected(Unauthorized("Token is invalid")))
  {
    var token := IssueToken(user, codec, issued);
    assert ' ' !in token;
    CredentialAfterBearer(token);
  }

  // ---------------------------------------------------------------------
  // /api/ai/chat
  // ---------------------------------------------------------------------

  const Unavailable: string := "Service unavailable"

  /** `response or "Service unavailable"`: a missing or empty completion falls back to the fixed text. */
  function ChatAnswer(completion: Option<string>): (answer: string)
    ensures answer != ""
    ensures answer == Unavailable <==> completion == None || completion == Some("") || completion == Some(Unavailable)
    ensures completion.Some? && completion.value != "" ==> answer == completion.value
  {
    if completion.Some? && completion.value != "" then completion.value else Unavailable
  }

  /**
   * What the completion helper does: return the content of a 200 answer,
   * return `None` for any other status, or raise (a connection error, a
   * body that is not JSON, or one without `choices[0].message.content`).
   */
  datatype Completion = Content(text: string) | OtherStatus | Raised

  /** The helper's return value, for the outcomes that return at all. */
  function Returned(c: Completion): Option<string>
    requires !c.Raised?
  {
    if c.Content? then Some(c.text) else None
  }

  /**
   * `/api/ai/chat` behind `token_required`: the outcome of the completion
   * helper and the server clock reading `stamp` are parameters. A raised
   * helper is an uncaught exception, so the answer is a 500.
   */
  function AiChat(header: Option<string>, codec: TokenCodec, now: int, completion: Completion, stamp: string): (r: Response)
    ensures Authorize(header, codec, now).Authorized? && completion.Raised? ==> r == ServerError
    ensures Authorize(header, codec, now).Authorized? && !completion.Raised? ==>
      r == Json(200, map["response" := ChatAnswer(Returned(completion)), "timestamp" := stamp])
    ensures Authorize(header, codec, now).Authorized? && completion.OtherStatus? ==>
      r.Json? && r.body["response"] == Unavailable
    ensures Authorize(header, codec, now).Rejected? ==> r.Json? && r.status == 401 && "response" !in r.body
    ensures Authorize(header, codec, now).Rejected? ==> r == Authorize(header, codec, now).response
  {
    Guarded(header, codec, now, (username, role) =>
      if completion.Raised? then ServerError
      else Json(200, map["response" := ChatAnswer(Returned(completion)), "timestamp" := stamp]))
  }
}

=== FILE: chatbot.dfy ===
/**
 * The customer chat widget: the season it reports for the current month,
 * its message list, the send handler, and the two predicates that decide
 * whether quick questions are shown and whether the send button is enabled.
 */
module Chatbot {
  import opened Strings

  datatype Season = Spring | Monsoon | Autumn | Winter

  /**
   * `getCurrentSeason` for a month numbered 1..12 (`getMonth() + 1`):
   * February to May is spring, June to September monsoon, October and
   * November autumn, and anything else winter.
   */
  function SeasonOf(month: int): (r: Season)
    ensures r == Winter <==> month < 2 || month > 11
  {
    if 2 <= month <= 5 then Spring
    else if 6 <= month <= 9 then Monsoon
    else if 10 <= month <= 11 then Autumn
    else Winter
  }

  /** Each season, stated as the set of calendar months it covers. */
  lemma SeasonMonths(month: int)
    requires 1 <= month <= 12
    ensures SeasonOf(month) == Spring <==> month in {2, 3, 4, 5}
    ensures SeasonOf(month) == Monsoon <==> month in {6, 7, 8, 9}
    ensures SeasonOf(month) == Autumn <==> month in {10, 11}
    ensures SeasonOf(month) == Winter <==> month in {12, 1}
  {
  }

  datatype Sender = Bot | User

  /** A chat bubble; the timestamp is the text the clock or the server supplied. */
  datatype Message = Message(sender: Sender, text: string, timestamp: string)

  datatype ChatState = ChatState(messages: seq<Message>, input: string, loading: bool)

  const Greeting: string := "\U{1F44B} Hi! I'm AgriBot, your farming equipment assistant. How can I help you today?"

  /** The widget's first state: one greeting from the bot, an empty input, not loading. */
  function Initial(stamp: string): (st: ChatState)
    ensures |st.messages| == 1 && st.messages[0].sender == Bot && st.messages[0].text == Greeting
    ensures st.input == "" && !st.loading
  {
    ChatState([Message(Bot, Greeting, stamp)], "", false)
  }

  /** The input counts as empty when trimming leaves nothing. */
  predicate Blank(input: string) {
    Trim(input) == ""
  }

  /**
   * The synchronous part of `handleSend`: a blank input does nothing;
   * otherwise the untrimmed input is appended as a user message, the input
   * is cleared and the widget starts loading.
   */
  function SendStart(st: ChatState, stamp: string): (r: ChatState)
    ensures Blank(st.input) ==> r == st
    ensures !Blank(st.input) ==>
      && r.messages == st.messages + [Message(User, st.input, stamp)]
      && r.input == "" && r.loading
  {
    if Blank(st.input) then st
    else ChatState(st.messages + [Message(User, st.input, stamp)], "", true)
  }

  /** The part of `handleSend` after the answer arrives: append it as a bot message and stop loading. */
  function SendFinish(st: ChatState, answer: string, answerStamp: string): (r: ChatState)
    ensures r.messages == st.messages + [Message(Bot, answer, answerStamp)]
    ensures r.input == st.input && !r.loading
  {
    st.(messages := st.messages + [Message(Bot, answer, answerStamp)], loading := false)
  }

  /** A whole `handleSend`: start, then finish with the assistant's answer. */
  function Send(st: ChatState, stamp: string, answer: string, answerStamp: string): (r: ChatState)
    ensures |r.messages| >= |st.messages| && r.messages[..|st.messages|] == st.messages
    ensures !r.loading || r == st
  {
    if Blank(st.input) then st else SendFinish(SendStart(st, stamp), answer, answerStamp)
  }

  /**
   * A send of a non-blank input adds exactly two messages, the user's
   * untrimmed text and then the answer, keeps every earlier message, and
   * leaves the input empty; a blank input changes nothing.
   */
  lemma SendAppendsTwo(st: ChatState, stamp: string, answer: string, answerStamp: string)
    ensures var r := Send(st, stamp, answer, answerStamp);
      && (Blank(st.input) ==> r == st)
      && (!Blank(st.input) ==>
            && |r.messages| == |st.messages| + 2
            && r.messages[..|st.messages|] == st.messages
            && r.messages[|st.messages|] == Message(User, st.input, stamp)
            && r.messages[|st.messages| + 1] == Message(Bot, answer, answerStamp)
            && r.input == "" && !r.loading)
  {
    if !Blank(st.input) {
      var r := Send(st, stamp, answer, answerStamp);
      assert r.messages == st.messages + [Message(User, st.input, stamp)] + [Message(Bot, answer, answerStamp)];
    }
  }

  /** Quick questions are shown while the greeting is the only message. */
  predicate QuickQuestionsShown(st: ChatState) {
    |st.messages| == 1
  }

  /** The send button is enabled when nothing is loading and the input is not blank. */
  predicate SendEnabled(st: ChatState) {
    !st.loading && !Blank(st.input)
  }

  /** The send button is enabled exactly when the input holds a non-whitespace character and nothing loads. */
  lemma SendEnabledIff(st: ChatState)
    ensures SendEnabled(st) <==> !st.loading && exists i :: 0 <= i < |st.input| && !IsWhitespace(st.input[i])
  {
    TrimEmptyIffBlank(st.input);
  }

  /** Quick questions are shown at first and disappear for good after the first real send. */
  lemma QuickQuestionsOnlyBeforeFirstSend(stamp: string, st: ChatState, s1: string, answer: string, s2: string)
    requires |st.messages| >= 1
    ensures QuickQuestionsShown(Initial(stamp))
    ensures !Blank(st.input) ==> !QuickQuestionsShown(Send(st, s1, answer, s2))
    ensures |Send(st, s1, answer, s2).messages| >= |st.messages|
  {
    SendAppendsTwo(st, s1, answer, s2);
  }

  const QuickQuestions: seq<string> := [
    "What equipment do you have for wheat farming?",
    "How much does a tractor cost per day?",
    "What's the difference between a harvester and a thresher?",
    "Do you offer delivery services?",
    "What equipment is best for small farms?"
  ]

  /** `handleQuickQuestion`: put the chosen question in the input. */
  function PickQuickQuestion(st: ChatState, i: nat): (r: ChatState)
    requires i < |QuickQuestions|
    ensures r.input in QuickQuestions && r.input == QuickQuestions[i]
    ensures r.messages == st.messages && r.loading == st.loading
  {
    st.(input := QuickQuestions[i])
  }

  /** Picking a quick question while idle always enables the send button. */
  lemma QuickQuestionEnablesSend(st: ChatState, i: nat)
    requires i < |QuickQuestions| && !st.loading
    ensures SendEnabled(PickQuickQuestion(st, i))
  {
    var q := QuickQuestions[i];
    assert q[|q| - 1] == '?' by {
      if i == 0 {} else if i == 1 {} else if i == 2 {} else if i == 3 {} else {}
    }
    TrimEmptyIffBlank(q);
  }
}

=== FILE: end_to_end.dfy ===
/**
 * Properties that span the client and the backend: the bearer header
 * round trip, and registration and sign-in carried from the form through
 * the endpoint into the session gate and back through a page reload.
 */
module EndToEnd {
  import opened Wrappers
  import Strings
  import Session
  import ApiClient
  import Backend
  import LoginView
  import RegisterView

  /**
   * How the client sees a backend answer: a JSON object's values arrive as
   * strings; the error page of an uncaught exception is not JSON, so its
   * data has no `message`.
   */
  function ToReply(r: Backend.Response): ApiClient.Reply {
    match r
    case Json(status, body) => ApiClient.Response(status, map k | k in body :: Str(body[k]))
    case ServerError => ApiClient.Response(500, map[])
  }

  /**
   * The bearer round trip: whatever the interceptor attaches, the backend
   * decodes the first space-free field of the stored token, which is the
   * whole token when it has no space.
   */
  lemma BearerRoundTrip(c: ApiClient.Config, st: Session.Storage)
    requires Session.StoredNonEmpty(st, Session.TokenKey)
    ensures var sent := ApiClient.Intercept(c, st);
      && "Authorization" in sent.headers
      && Backend.Credential(sent.headers["Authorization"]) == Strings.Split(st[Session.TokenKey], ' ')[0]
      && (' ' !in st[Session.TokenKey] ==> Backend.Credential(sent.headers["Authorization"]) == st[Session.TokenKey])
  {
    Backend.CredentialAfterBearer(st[Session.TokenKey]);
  }

  /**
   * A wrapper's request sent with no stored token carries no credential,
   * and the guard answers "Token is missing" to the headers that arrive.
   */
  lemma NoTokenNoCredential(e: ApiClient.Endpoint, body: map<string, string>, st: Session.Storage,
                            codec: Backend.TokenCodec, now: int)
    requires !Session.StoredNonEmpty(st, Session.TokenKey)
    ensures var sent := ApiClient.Intercept(ApiClient.Request(e, body), st);
      && "Authorization" !in sent.headers
      && Backend.Authorize(if "Authorization" in sent.headers then Some(sent.headers["Authorization"]) else None,
                           codec, now)
         == Backend.Rejected(Backend.Unauthorized("Token is missing"))
  {
  }

  /** The user row a sign-in with these credentials reaches, when the password is right. */
  ghost predicate ValidAccount(users: Backend.Users, hash: string -> string, username: string, password: string) {
    && Backend.WellKeyed(users)
    && username in users && username != ""
    && users[username].role != ""
    && users[username].password == hash(password)
  }

  /**
   * Sign-in against the corrected login endpoint: the new session is the
   * user's, it is exactly what a page reload restores, and the stored
   * token passes `token_required` with the user's identity for the next
   * 24 hours.
   */
  lemma SignInSurvivesReload(st: LoginView.State, gate: Session.Gate, users: Backend.Users,
                             hash: string -> string, codec: Backend.TokenCodec, now: int, later: int,
                             c: ApiClient.Config)
    requires Backend.SoundCodec(codec)
    requires ValidAccount(users, hash, st.form.username, st.form.password)
    requires now <= later < now + Backend.TokenLifetime
    ensures var user := users[st.form.username];
      var answer := Backend.LoginWithName(LoginView.RequestBody(st.form), users, hash, codec, now);
      var out := LoginView.Submit(st, gate, ToReply(answer));
      var sent := ApiClient.Intercept(c, out.gate.storage);
      && out.gate.session.isAuthenticated
      && out.gate.session.role == Str(user.role)
      && out.gate.session.user == Some(Session.User(Str(user.username), Str(user.name), Str(user.role)))
      && Session.Reload(out.gate) == out.gate
      && "Authorization" in sent.headers
      && Backend.Authorize(Some(sent.headers["Authorization"]), codec, later)
           == Backend.Authorized(user.username, user.role)
  {
    var user := users[st.form.username];
    var body := LoginView.RequestBody(st.form);
    assert Backend.CheckCredentials(body, users, hash).Ok?;
    var answer := Backend.LoginWithName(body, users, hash, codec, now);
    var token := Backend.IssueToken(user, codec, now);
    var reply := ToReply(answer);
    assert Field(reply.data, "token") == Str(token);
    assert Field(reply.data, "name") == Str(user.name);
    var out := LoginView.Submit(st, gate, reply);
    Session.LoginThenReload(gate, token, user.username, user.role, user.name);
    BearerRoundTrip(c, out.gate.storage);
    Backend.IssuedTokenAuthorizes(user, codec, now, later);
  }

  /**
   * Sign-in against the login endpoint as written: the answer has no
   * `name`, so the session's name is `undefined`, storage holds the text
   * "undefined", and after a reload the session's name is that text: the
   * reload does not give back the session the sign-in produced.
   */
  lemma SignInChangesNameOnReload(st: LoginView.State, gate: Session.Gate, users: Backend.Users,
                                  hash: string -> string, codec: Backend.TokenCodec, now: int)
    requires Backend.SoundCodec(codec)
    requires ValidAccount(users, hash, st.form.username, st.form.password)
    ensures var answer := Backend.Login(LoginView.RequestBody(st.form), users, hash, codec, now);
      var out := LoginView.Submit(st, gate, ToReply(answer));
      && out.gate.session.isAuthenticated
      && out.gate.session.user.value.name == Undefined
      && out.gate.storage[Session.NameKey] == "undefined"
      && Session.Reload(out.gate).session.user.value.name == Str("undefined")
      && Session.Reload(out.gate) != out.gate
  {
    var user := users[st.form.username];
    var body := LoginView.RequestBody(st.form);
    assert Backend.CheckCredentials(body, users, hash).Ok?;
    var token := Backend.IssueToken(user, codec, now);
    var reply := ToReply(Backend.Login(body, users, hash, codec, now));
    assert Field(reply.data, "token") == Str(token);
    assert Field(reply.data, "name") == Undefined;
    var out := LoginView.Submit(st, gate, reply);
    assert Session.StoredNonEmpty(out.gate.storage, Session.TokenKey);
    assert Session.StoredNonEmpty(out.gate.storage, Session.UsernameKey);
    assert Session.StoredNonEmpty(out.gate.storage, Session.RoleKey);
  }

  /**
   * Registration through the form: with matching passwords and a fresh
   * username the row stores the hashed password and the role chosen in the
   * form, and signing in with the same username and password then succeeds
   * with that role.
   */
  lemma RegisterThenSignIn(st: RegisterView.State, reply: ApiClient.Reply, users: Backend.Users,
                           hash: string -> string, codec: Backend.TokenCodec, now: int)
    requires Backend.WellKeyed(users)
    requires st.form.password == st.form.confirmPassword
    requires st.form.username !in users
    ensures var out := RegisterView.Submit(st, reply);
      var result := Backend.Register(out.request.value, users, hash);
      var row := result.users[st.form.username];
      var login := Backend.Login(map["username" := st.form.username, "password" := st.form.password],
                                 result.users, hash, codec, now);
      && out.request.Some?
      && result.response == Backend.Json(201, map["message" := "Registered successfully"])
      && row.password == hash(st.form.password) && row.role == st.form.role && row.name == st.form.name
      && login.Json? && login.status == 200 && login.body["role"] == st.form.role
  {
    var out := RegisterView.Submit(st, reply);
    Backend.RegisterThenLogin(out.request.value, users, hash, codec, now);
  }
}

=== FILE: login_view.dfy ===
/**
 * The login screen: its form state, the change handler of its two inputs,
 * and what a submission does with the server's answer.
 */
module LoginView {
  import opened Wrappers
  import Session
  import ApiClient

  datatype Form = Form(username: string, password: string)

  /** The `name` attributes of the two inputs. */
  datatype FieldName = Username | Password

  datatype State = State(form: Form, error: string, loading: bool)

  const Initial: State := State(Form("", ""), "", false)

  const LoginFailed: string := "Login failed. Please try again."

  /** `handleChange`: store the input's value under its name and clear the error. */
  function HandleChange(st: State, field: FieldName, value: string): (r: State)
    ensures r.error == "" && r.loading == st.loading
    ensures field == Username ==> r.form == Form(value, st.form.password)
    ensures field == Password ==> r.form == Form(st.form.username, value)
  {
    var form := match field
      case Username => st.form.(username := value)
      case Password => st.form.(password := value);
    st.(form := form, error := "")
  }

  /** Edits to different inputs commute, and a second edit of one input overrides the first. */
  lemma HandleChangeIndependent(st: State, f: FieldName, g: FieldName, a: string, b: string)
    ensures f != g ==> HandleChange(HandleChange(st, f, a), g, b) == HandleChange(HandleChange(st, g, b), f, a)
    ensures HandleChange(HandleChange(st, f, a), f, b) == HandleChange(st, f, b)
  {
  }

  /** The JSON body posted to the login endpoint: the form as it stands. */
  function RequestBody(form: Form): (body: map<string, string>)
    ensures body.Keys == {"username", "password"}
    ensures body["username"] == form.username && body["password"] == form.password
  {
    map["username" := form.username, "password" := form.password]
  }

  /** The state after a submission completes, the gate, and where the screen navigates to. */
  datatype Outcome = Outcome(state: State, gate: Session.Gate, navigate: Option<Session.Route>)

  /**
   * `handleSubmit` once the request has settled: on success call `login`
   * with the answer's token, username, role and name (absent fields are
   * `undefined`) and navigate to `/admin` for the role "admin" and to
   * `/customer` for anything else; on failure leave the gate alone and show
   * the server's message or the fixed fallback.
   */
  function Submit(st: State, gate: Session.Gate, reply: ApiClient.Reply): (r: Outcome)
    ensures !r.state.loading && r.state.form == st.form
    ensures ApiClient.Succeeded(reply) ==>
      var data := reply.data;
      && r.gate == Session.Login(gate, Field(data, "token"), Field(data, "username"), Field(data, "role"), Field(data, "name"))
      && r.state.error == ""
      && r.navigate == Some(if Field(data, "role") == Str("admin") then Session.AdminRoute else Session.CustomerRoute)
    ensures !ApiClient.Succeeded(reply) ==>
      && r.gate == gate && r.navigate == None
      && r.state.error != ""
      && r.state.error == ApiClient.ErrorMessage(reply, LoginFailed)
  {
    if ApiClient.Succeeded(reply) then
      var data := reply.data;
      var role := Field(data, "role");
      var gate' := Session.Login(gate, Field(data, "token"), Field(data, "username"), role, Field(data, "name"));
      var home := if role == Str("admin") then Session.AdminRoute else Session.CustomerRoute;
      Outcome(st.(error := "", loading := false), gate', Some(home))
    else
      Outcome(st.(error := ApiClient.ErrorMessage(reply, LoginFailed), loading := false), gate, None)
  }

  /**
   * Where the screen navigates after a successful login is where the
   * router's guard for the new session renders the matching dashboard;
   * any other role is sent to `/customer`, whose guard bounces it to
   * `/login`.
   */
  lemma NavigationAgreesWithGuards(st: State, gate: Session.Gate, reply: ApiClient.Reply)
    requires ApiClient.Succeeded(reply)
    ensures var r := Submit(st, gate, reply);
      var role := Field(reply.data, "role");
      && r.navigate.Some?
      && (role == Str("admin") ==> Session.Decide(r.gate.session, r.navigate.value) == Session.Render(Session.AdminDashboard))
      && (role == Str("customer") ==> Session.Decide(r.gate.session, r.navigate.value) == Session.Render(Session.CustomerDashboard))
      && (role != Str("admin") && role != Str("customer") ==>
            Session.Decide(r.gate.session, r.navigate.value) == Session.Redirect(Session.LoginRoute))
  {
  }
}

=== FILE: register_view.dfy ===
/**
 * The registration screen: its form state, the change handler, the
 * confirm-password check, the payload it posts, and what it shows once
 * the request has settled.
 */
module RegisterView {
  import opened Wrappers
  import Session
  import ApiClient

  datatype Form = Form(name: string, username: string, password: string, confirmPassword: string, role: string)

  /** The `name` attributes of the form's inputs and its role select. */
  datatype FieldName = Name | Username | Password | ConfirmPassword | Role

  datatype State = State(form: Form, error: string, success: string, loading: bool)

  /** Every field starts empty except the role select, which starts on "customer". */
  const Initial: State := State(Form("", "", "", "", "customer"), "", "", false)

  const Mismatch: string := "Passwords do not match"
  const Registered: string := "Registration successful! Redirecting to login..."
  const RegistrationFailed: string := "Registration failed. Please try again."

  function Get(form: Form, field: FieldName): string {
    match field
    case Name => form.name
    case Username => form.username
    case Password => form.password
    case ConfirmPassword => form.confirmPassword
    case Role => form.role
  }

  /** `handleChange`: store the value under the input's name and clear both banners. */
  function HandleChange(st: State, field: FieldName, value: string): (r: State)
    ensures Get(r.form, field) == value
    ensures forall other :: other != field ==> Get(r.form, other) == Get(st.form, other)
    ensures r.error == "" && r.success == "" && r.loading == st.loading
  {
    var form := match field
      case Name => st.form.(name := value)
      case Username => st.form.(username := value)
      case Password => st.form.(password := value)
      case ConfirmPassword => st.form.(confirmPassword := value)
      case Role => st.form.(role := value);
    st.(form := form, error := "", success := "")
  }

  /** The registration payload: the form without `confirmPassword`. */
  function Payload(form: Form): (body: map<string, string>)
    ensures body.Keys == {"name", "username", "password", "role"}
    ensures "confirmPassword" !in body
    ensures body["name"] == form.name && body["username"] == form.username
    ensures body["password"] == form.password && body["role"] == form.role
  {
    map["name" := form.name, "username" := form.username, "password" := form.password, "role" := form.role]
  }

  /** The first half of `handleSubmit`: refuse mismatching passwords, otherwise produce the payload. */
  function Validate(form: Form): (r: Result<map<string, string>, string>)
    ensures r.Err? <==> form.password != form.confirmPassword
    ensures r.Err? ==> r.error == Mismatch
    ensures r.Ok? ==> r.value == Payload(form)
  {
    if form.password != form.confirmPassword then Err(Mismatch) else Ok(Payload(form))
  }

  /**
   * The state after a submission, the request that was posted (if any),
   * and the navigation scheduled for later.
   */
  datatype Outcome = Outcome(state: State, request: Option<map<string, string>>, navigateLater: Option<Session.Route>)

  /**
   * `handleSubmit` once settled: mismatching passwords show "Passwords do
   * not match" and post nothing; otherwise the payload is posted and the
   * reply decides between the success banner (then `/login` after a delay)
   * and the server's message or the fixed fallback.
   */
  function Submit(st: State, reply: ApiClient.Reply): (r: Outcome)
    ensures !r.state.loading && r.state.form == st.form
    ensures st.form.password != st.form.confirmPassword ==>
      r.request == None && r.state.error == Mismatch && r.state.success == "" && r.navigateLater == None
    ensures st.form.password == st.form.confirmPassword ==>
      && r.request == Some(Payload(st.form))
      && (ApiClient.Succeeded(reply) ==>
            r.state.success == Registered && r.state.error == "" && r.navigateLater == Some(Session.LoginRoute))
      && (!ApiClient.Succeeded(reply) ==>
            r.state.success == "" && r.navigateLater == None
            && r.state.error == ApiClient.ErrorMessage(reply, RegistrationFailed) && r.state.error != "")
  {
    var cleared := st.(error := "", success := "", loading := false);
    match Validate(st.form)
    case Err(e) => Outcome(cleared.(error := e), None, None)
    case Ok(body) =>
      if ApiClient.Succeeded(reply) then Outcome(cleared.(success := Registered), Some(body), Some(Session.LoginRoute))
      else Outcome(cleared.(error := ApiClient.ErrorMessage(reply, RegistrationFailed)), Some(body), None)
  }

  /** Only the role needs no typing: a fresh form with matching passwords posts role "customer". */
  lemma FreshFormIsCustomer(st: State, name: string, username: string, password: string, reply: ApiClient.Reply)
    requires st == Initial
    ensures var filled := HandleChange(HandleChange(HandleChange(HandleChange(st,
                            Name, name), Username, username), Password, password), ConfirmPassword, password);
      var r := Submit(filled, reply);
      r.request.Some? && r.request.value["role"] == "customer" && r.request.value["password"] == password
  {
  }
}

=== FILE: rentals.dfy ===
/**
 * The admin rental list: the status filter behind its three tabs and the
 * empty-state predicate.
 */
module Rentals {

  /** A row of the rental table (the floating-point total is not modelled). */
  datatype Rental = Rental(id: nat, username: string, equipmentName: string, days: int, status: string)

  /** The tab selected when the screen opens. */
  const InitialFilter: string := "all"

  /** The rentals whose status equals `status`, in their original order. */
  function Matching(rentals: seq<Rental>, status: string): (r: seq<Rental>)
    ensures |r| <= |rentals|
    ensures forall i :: 0 <= i < |r| ==> r[i].status == status
    ensures forall x :: multiset(r)[x] == if x.status == status then multiset(rentals)[x] else 0
    decreases |rentals|
  {
    if |rentals| == 0 then []
    else
      assert rentals == [rentals[0]] + rentals[1..];
      (if rentals[0].status == status then [rentals[0]] else []) + Matching(rentals[1..], status)
  }

  /** `filteredRentals`: the whole list for 'all', otherwise the rentals with that status. */
  function Filtered(rentals: seq<Rental>, filter: string): (r: seq<Rental>)
    ensures filter == "all" ==> r == rentals
    ensures filter != "all" ==> forall x :: x in r ==> x.status == filter
    ensures filter != "all" ==> forall x :: x in rentals && x.status == filter ==> x in r
    ensures filter != "all" ==> forall x :: multiset(r)[x] == if x.status == filter then multiset(rentals)[x] else 0
  {
    if filter == "all" then rentals else Matching(rentals, filter)
  }

  /** `a` can be obtained from `b` by deleting elements, keeping the order of the rest. */
  predicate IsSubsequence(a: seq<Rental>, b: seq<Rental>)
    decreases |b|
  {
    if |a| == 0 then true
    else if |b| == 0 then false
    else (a[0] == b[0] && IsSubsequence(a[1..], b[1..])) || IsSubsequence(a, b[1..])
  }

  /** The filtered list keeps the input's order: it is a subsequence of the input. */
  lemma {:induction false} FilteredIsSubsequence(rentals: seq<Rental>, filter: string)
    ensures IsSubsequence(Filtered(rentals, filter), rentals)
  {
    if filter == "all" {
      SubsequenceReflexive(rentals);
    } else {
      MatchingIsSubsequence(rentals, filter);
    }
  }

  lemma {:induction false} SubsequenceReflexive(a: seq<Rental>)
    ensures IsSubsequence(a, a)
    decreases |a|
  {
    if |a| > 0 {
      SubsequenceReflexive(a[1..]);
    }
  }

  lemma {:induction false} MatchingIsSubsequence(rentals: seq<Rental>, status: string)
    ensures IsSubsequence(Matching(rentals, status), rentals)
    decreases |rentals|
  {
    if |rentals| > 0 {
      var rest := Matching(rentals[1..], status);
      MatchingIsSubsequence(rentals[1..], status);
      if rentals[0].status == status {
        assert Matching(rentals, status) == [rentals[0]] + rest;
        assert ([rentals[0]] + rest)[1..] == rest;
      } else {
        assert Matching(rentals, status) == rest;
      }
    }
  }

  /** Filtering the filtered list again with the same tab changes nothing. */
  lemma {:induction false} FilteredIdempotent(rentals: seq<Rental>, filter: string)
    ensures Filtered(Filtered(rentals, filter), filter) == Filtered(rentals, filter)
  {
    if filter != "all" {
      MatchingIdempotent(rentals, filter);
    }
  }

  lemma {:induction false} MatchingIdempotent(rentals: seq<Rental>, status: string)
    ensures Matching(Matching(rentals, status), status) == Matching(rentals, status)
    decreases |rentals|
  {
    if |rentals| > 0 {
      MatchingIdempotent(rentals[1..], status);
      var rest := Matching(rentals[1..], status);
      if rentals[0].status == status {
        var r := [rentals[0]] + rest;
        assert Matching(rentals, status) == r;
        assert r[0] == rentals[0] && r[1..] == rest;
        assert Matching(r, status) == [rentals[0]] + Matching(rest, status);
      } else {
        assert Matching(rentals, status) == rest;
      }
    }
  }

  /** Two different tabs never show more rentals between them than 'all' does. */
  lemma {:induction false} DisjointTabsBounded(rentals: seq<Rental>, s1: string, s2: string)
    requires s1 != s2 && s1 != "all" && s2 != "all"
    ensures |Filtered(rentals, s1)| + |Filtered(rentals, s2)| <= |Filtered(rentals, "all")|
    decreases |rentals|
  {
    if |rentals| > 0 {
      DisjointTabsBounded(rentals[1..], s1, s2);
    }
  }

  /** The 'Active' and 'Returned' tabs together show at most the 'All Rentals' tab. */
  lemma RentedPlusReturnedAtMostAll(rentals: seq<Rental>)
    ensures |Filtered(rentals, "rented")| + |Filtered(rentals, "returned")| <= |Filtered(rentals, "all")|
  {
    DisjointTabsBounded(rentals, "rented", "returned");
  }

  /** The empty state is shown when the filtered list is empty. */
  predicate EmptyState(rentals: seq<Rental>, filter: string)
    ensures EmptyState(rentals, filter) <==> forall x :: x in rentals ==> filter != "all" && x.status != filter
  {
    |Filtered(rentals, filter)| == 0
  }

  /** The empty state appears exactly when no rental matches the tab; under 'all', when there are none. */
  lemma EmptyStateIff(rentals: seq<Rental>, filter: string)
    ensures EmptyState(rentals, InitialFilter) <==> |rentals| == 0
    ensures filter == "all" ==> (EmptyState(rentals, filter) <==> |rentals| == 0)
    ensures filter != "all" ==> (EmptyState(rentals, filter) <==> forall x :: x in rentals ==> x.status != filter)
  {
    var r := Filtered(rentals, filter);
    if filter != "all" && |r| > 0 {
      assert r[0] in r;
    }
  }
}

=== FILE: session.dfy ===
/**
 * The client-side session gate of the top-level application component:
 * the session record, its persistence in `localStorage` under four keys,
 * the `restore`/`login`/`logout` transitions, and the route guards that
 * decide, for each route, whether to render a view or redirect.
 */
module Session {
  import opened Wrappers

  /** The browser's `localStorage`: string keys to string values. */
  type Storage = map<string, string>

  const TokenKey: string := "token"
  const UsernameKey: string := "username"
  const RoleKey: string := "role"
  const NameKey: string := "name"

  /** The four keys the gate reads, writes and removes. */
  const SessionKeys: set<string> := {TokenKey, UsernameKey, RoleKey, NameKey}

  /** The `user` object of the session: the values exactly as they were passed in. */
  datatype User = User(username: JsValue, name: JsValue, role: JsValue)

  /** The `auth` state: `{isAuthenticated, token, user, role}`. */
  datatype Session = Session(isAuthenticated: bool, token: JsValue, user: Option<User>, role: JsValue)

  /** The in-memory session together with the browser storage it is persisted in. */
  datatype Gate = Gate(session: Session, storage: Storage)

  /** The state the component starts with: unauthenticated, every field `null`. */
  const Initial: Session := Session(false, Null, None, Null)

  /**
   * What every session the gate produces looks like: an authenticated
   * session has a user whose role is the session's role, and an
   * unauthenticated one is the initial session.
   */
  ghost predicate Consistent(s: Session) {
    && (s.isAuthenticated ==> s.user.Some? && s.user.value.role == s.role)
    && (!s.isAuthenticated ==> s == Initial)
  }

  /** `localStorage.getItem(key)`: the stored string, or `null` for a missing key. */
  function GetItem(st: Storage, key: string): JsValue {
    if key in st then Str(st[key]) else Null
  }

  /** The stored value under `key` is present and a non-empty string. */
  ghost predicate StoredNonEmpty(st: Storage, key: string) {
    key in st && st[key] != ""
  }

  /**
   * The mount-time effect: rebuild the session from storage when token,
   * username and role are all truthy; otherwise the session stays the
   * initial one. The name is read but plays no part in the decision.
   */
  function Restore(st: Storage): (s: Session)
    ensures Consistent(s)
    ensures s.isAuthenticated <==>
      StoredNonEmpty(st, TokenKey) && StoredNonEmpty(st, UsernameKey) && StoredNonEmpty(st, RoleKey)
    ensures s.isAuthenticated ==>
      && s.token == Str(st[TokenKey])
      && s.role == Str(st[RoleKey])
      && s.user.value.username == Str(st[UsernameKey])
      && s.user.value.name == (if NameKey in st then Str(st[NameKey]) else Null)
  {
    var token := GetItem(st, TokenKey);
    var user := GetItem(st, UsernameKey);
    var role := GetItem(st, RoleKey);
    var name := GetItem(st, NameKey);
    if token.Truthy() && user.Truthy() && role.Truthy() then
      Session(true, token, Some(User(user, name, role)), role)
    else
      Initial
  }

  /**
   * `login(token, username, role, name)`: write the four values to storage
   * (as `String(v)`, so `undefined` becomes the text "undefined") and make
   * the session authenticated with the values as given.
   */
  function Login(g: Gate, token: JsValue, username: JsValue, role: JsValue, name: JsValue): (r: Gate)
    ensures Consistent(r.session)
    ensures r.session.isAuthenticated && r.session.token == token && r.session.role == role
    ensures r.session.user == Some(User(username, name, role))
    ensures r.storage.Keys == g.storage.Keys + SessionKeys
    ensures forall k :: k in g.storage && k !in SessionKeys ==> r.storage[k] == g.storage[k]
    ensures r.storage[TokenKey] == token.ToText() && r.storage[UsernameKey] == username.ToText()
    ensures r.storage[RoleKey] == role.ToText() && r.storage[NameKey] == name.ToText()
  {
    var st := g.storage[TokenKey := token.ToText()][UsernameKey := username.ToText()]
                       [RoleKey := role.ToText()][NameKey := name.ToText()];
    Gate(Session(true, token, Some(User(username, name, role)), role), st)
  }

  /** `logout()`: remove the four keys and go back to the initial session. */
  function Logout(g: Gate): (r: Gate)
    ensures r.session == Initial
    ensures r.storage.Keys == g.storage.Keys - SessionKeys
    ensures forall k :: k in r.storage ==> r.storage[k] == g.storage[k]
  {
    Gate(Initial, g.storage - SessionKeys)
  }

  /** A page reload: the in-memory session is lost and rebuilt from storage. */
  function Reload(g: Gate): (r: Gate)
    ensures r.storage == g.storage
    ensures r.session == Restore(g.storage)
    ensures Consistent(r.session)
    ensures r.session.isAuthenticated <==>
      StoredNonEmpty(g.storage, TokenKey) && StoredNonEmpty(g.storage, UsernameKey) && StoredNonEmpty(g.storage, RoleKey)
  {
    Gate(Restore(g.storage), g.storage)
  }

  /**
   * Round trip through storage: after a login with a non-empty token,
   * username and role and a string name, reloading the page gives back the
   * very same session.
   */
  lemma LoginThenReload(g: Gate, token: string, username: string, role: string, name: string)
    requires token != "" && username != "" && role != ""
    ensures Reload(Login(g, Str(token), Str(username), Str(role), Str(name))) ==
            Login(g, Str(token), Str(username), Str(role), Str(name))
  {
    var r := Login(g, Str(token), Str(username), Str(role), Str(name));
    assert StoredNonEmpty(r.storage, TokenKey);
    assert StoredNonEmpty(r.storage, UsernameKey);
    assert StoredNonEmpty(r.storage, RoleKey);
  }

  /** The stored name never decides whether a restore authenticates. */
  lemma RestoreIgnoresName(st: Storage, name: string)
    ensures Restore(st).isAuthenticated == Restore(st[NameKey := name]).isAuthenticated
    ensures Restore(st).isAuthenticated == Restore(st - {NameKey}).isAuthenticated
  {
    assert forall k :: k != NameKey ==> GetItem(st[NameKey := name], k) == GetItem(st, k);
    assert forall k :: k != NameKey ==> GetItem(st - {NameKey}, k) == GetItem(st, k);
  }

  /** Logging out twice is logging out once, and nothing survives for a reload to restore. */
  lemma LogoutIdempotent(g: Gate)
    ensures Logout(Logout(g)) == Logout(g)
    ensures Reload(Logout(g)) == Logout(g)
  {
    var once := Logout(g);
    assert once.storage - SessionKeys == once.storage;
    assert !StoredNonEmpty(once.storage, TokenKey);
  }

  // ---------------------------------------------------------------------
  // Route guards
  // ---------------------------------------------------------------------

  /** The route patterns of the router, plus every path none of them matches. */
  datatype Route = Root | LoginRoute | RegisterRoute | AdminRoute | CustomerRoute | Unmatched

  /** The screens a route can render. */
  datatype View = LoginView | RegisterView | AdminDashboard | CustomerDashboard

  /** A route's element: render a view, navigate elsewhere, or (no route matched) nothing. */
  datatype Decision = Render(view: View) | Redirect(to: Route) | NothingMatched

  /** Where an authenticated session is sent from `/`, `/login` and `/register`. */
  function Home(s: Session): Route {
    if s.role == Str("admin") then AdminRoute else CustomerRoute
  }

  /** The element each `<Route>` evaluates to for the current session. */
  function Decide(s: Session, route: Route): (r: Decision)
    ensures r == NothingMatched <==> route == Unmatched
    ensures r.Redirect? ==> r.to != route && r.to != Unmatched
    ensures r == Render(LoginView) || r == Render(RegisterView) ==> !s.isAuthenticated
    ensures r == Render(AdminDashboard) ==> s.isAuthenticated && s.role == Str("admin")
    ensures r == Render(CustomerDashboard) ==> s.isAuthenticated && s.role == Str("customer")
    ensures s.isAuthenticated && (route == Root || route == LoginRoute || route == RegisterRoute) ==>
      r == Redirect(if s.role == Str("admin") then AdminRoute else CustomerRoute)
    ensures route == AdminRoute && !(s.isAuthenticated && s.role == Str("admin")) ==> r == Redirect(LoginRoute)
    ensures route == CustomerRoute && !(s.isAuthenticated && s.role == Str("customer")) ==> r == Redirect(LoginRoute)
  {
    match route
    case Root => if s.isAuthenticated then Redirect(Home(s)) else Redirect(LoginRoute)
    case LoginRoute => if s.isAuthenticated then Redirect(Home(s)) else Render(LoginView)
    case RegisterRoute => if s.isAuthenticated then Redirect(Home(s)) else Render(RegisterView)
    case AdminRoute =>
      if s.isAuthenticated && s.role == Str("admin") then Render(AdminDashboard) else Redirect(LoginRoute)
    case CustomerRoute =>
      if s.isAuthenticated && s.role == Str("customer") then Render(CustomerDashboard) else Redirect(LoginRoute)
    case Unmatched => NothingMatched
  }

  /** Unauthenticated: only the login and registration views render; everything scoped goes to `/login`. */
  lemma UnauthenticatedRoutes(s: Session)
    requires !s.isAuthenticated
    ensures Decide(s, Root) == Redirect(LoginRoute)
    ensures Decide(s, LoginRoute) == Render(LoginView)
    ensures Decide(s, RegisterRoute) == Render(RegisterView)
    ensures Decide(s, AdminRoute) == Redirect(LoginRoute)
    ensures Decide(s, CustomerRoute) == Redirect(LoginRoute)
  {
  }

  /** An authenticated admin is sent home from the public routes and sees only the admin area. */
  lemma AdminRoutes(s: Session)
    requires s.isAuthenticated && s.role == Str("admin")
    ensures Decide(s, Root) == Redirect(AdminRoute)
    ensures Decide(s, LoginRoute) == Redirect(AdminRoute)
    ensures Decide(s, RegisterRoute) == Redirect(AdminRoute)
    ensures Decide(s, AdminRoute) == Render(AdminDashboard)
    ensures Decide(s, CustomerRoute) == Redirect(LoginRoute)
  {
  }

  /** An authenticated customer is sent home from the public routes and sees only the customer area. */
  lemma CustomerRoutes(s: Session)
    requires s.isAuthenticated && s.role == Str("customer")
    ensures Decide(s, Root) == Redirect(CustomerRoute)
    ensures Decide(s, LoginRoute) == Redirect(CustomerRoute)
    ensures Decide(s, RegisterRoute) == Redirect(CustomerRoute)
    ensures Decide(s, AdminRoute) == Redirect(LoginRoute)
    ensures Decide(s, CustomerRoute) == Render(CustomerDashboard)
  {
  }

  /** Each scoped area renders for exactly one role, and only when authenticated. */
  lemma ScopedAreasIff(s: Session)
    ensures Decide(s, AdminRoute).Render? <==> s.isAuthenticated && s.role == Str("admin")
    ensures Decide(s, CustomerRoute).Render? <==> s.isAuthenticated && s.role == Str("customer")
    ensures !(Decide(s, AdminRoute).Render? && Decide(s, CustomerRoute).Render?)
    ensures Consistent(s) ==> (Decide(s, LoginRoute).Render? <==> s == Initial)
  {
  }

  /** The decision reached after following at most `hops` redirects from `route`. */
  function Follow(s: Session, route: Route, hops: nat): Decision
    decreases hops
  {
    var d := Decide(s, route);
    if d.Redirect? && hops > 0 then Follow(s, d.to, hops - 1) else d
  }

  /** A recognised role or no session at all: every routed path reaches a view within two redirects. */
  lemma SettlesWithinTwoHops(s: Session, route: Route)
    requires !s.isAuthenticated || s.role == Str("admin") || s.role == Str("customer")
    requires route != Unmatched
    ensures Follow(s, route, 2).Render?
  {
    var d := Decide(s, route);
    if d.Redirect? {
      var d' := Decide(s, d.to);
      if d'.Redirect? {
        assert Decide(s, d'.to).Render?;
      }
    }
  }

  /**
   * An authenticated role other than `admin` and `customer` is sent from the
   * public routes to `/customer`, which sends it to `/login`, which sends it
   * back to `/customer`: no view is ever rendered, however many redirects
   * are followed.
   */
  lemma {:induction false} UnknownRoleNeverRenders(s: Session, route: Route, hops: nat)
    requires s.isAuthenticated && s.role != Str("admin") && s.role != Str("customer")
    ensures Decide(s, LoginRoute) == Redirect(CustomerRoute)
    ensures Decide(s, CustomerRoute) == Redirect(LoginRoute)
    ensures !Follow(s, route, hops).Render?
    decreases hops
  {
    var d := Decide(s, route);
    if d.Redirect? && hops > 0 {
      UnknownRoleNeverRenders(s, d.to, hops - 1);
    }
  }
}

=== FILE: strings.dfy ===
/**
 * The string primitives the client and the backend rely on, written out
 * because Dafny strings are plain `seq<char>`: JavaScript's `includes`,
 * `trim` and `replace(/_/g, ...)`, Python's `str.split(' ')` and
 * `str.startswith`, and the decimal rendering of an integer inside a
 * template literal.
 */
module Strings {

  /** `p` is a prefix of `s` (`s.startswith(p)` / `s.startsWith(p)`). */
  predicate IsPrefix(p: string, s: string) {
    |p| <= |s| && s[..|p|] == p
  }

  /** `sub` occurs in `s` starting at index `i`. */
  ghost predicate OccursAt(s: string, sub: string, i: int) {
    0 <= i && i + |sub| <= |s| && s[i..i + |sub|] == sub
  }

  /** `s.includes(sub)`: try every start position from left to right. */
  function Contains(s: string, sub: string): bool
    decreases |s|
  {
    if IsPrefix(sub, s) then true
    else if |s| == 0 then false
    else Contains(s[1..], sub)
  }

  /** The scanning definition of `Contains` agrees with "some occurrence exists". */
  lemma {:induction false} ContainsIffOccurs(s: string, sub: string)
    ensures Contains(s, sub) <==> exists i :: OccursAt(s, sub, i)
    decreases |s|
  {
    if IsPrefix(sub, s) {
      assert OccursAt(s, sub, 0);
    } else if |s| > 0 {
      ContainsIffOccurs(s[1..], sub);
      if Contains(s[1..], sub) {
        var j :| OccursAt(s[1..], sub, j);
        assert s[1..][j..j + |sub|] == s[j + 1..j + 1 + |sub|];
        assert OccursAt(s, sub, j + 1);
      } else {
        forall i | 0 < i && OccursAt(s, sub, i)
          ensures OccursAt(s[1..], sub, i - 1)
        {
          assert s[1..][i - 1..i - 1 + |sub|] == s[i..i + |sub|];
        }
      }
    }
  }

  /** An occurrence of `sub` at `i` is an occurrence of any piece `sub[k..]` at `i + k`. */
  lemma OccursAtSuffix(s: string, sub: string, i: int, k: nat)
    requires OccursAt(s, sub, i)
    requires k <= |sub|
    ensures OccursAt(s, sub[k..], i + k)
  {
    assert s[i + k..i + |sub|] == s[i..i + |sub|][k..];
  }

  // ---------------------------------------------------------------------
  // Python's str.split(sep) with an explicit one-character separator
  // ---------------------------------------------------------------------

  /**
   * `s.split(sep)`: the fields between consecutive separators, keeping
   * empty fields. There is always at least one field, no field contains
   * the separator, and a separator in `s` yields at least two fields.
   */
  function Split(s: string, sep: char): (r: seq<string>)
    ensures |r| >= 1
    ensures forall i :: 0 <= i < |r| ==> sep !in r[i]
    ensures sep in s ==> |r| >= 2
    decreases |s|
  {
    if |s| == 0 then [""]
    else
      var rest := Split(s[1..], sep);
      if s[0] == sep then [""] + rest
      else [[s[0]] + rest[0]] + rest[1..]
  }

  /** `sep.join(parts)`: the inverse of `Split`. */
  function Join(parts: seq<string>, sep: char): string
    requires |parts| >= 1
    decreases |parts|
  {
    if |parts| == 1 then parts[0] else parts[0] + [sep] + Join(parts[1..], sep)
  }

  /** Splitting loses nothing: joining the fields with the separator gives `s` back. */
  lemma {:induction false} JoinSplit(s: string, sep: char)
    ensures Join(Split(s, sep), sep) == s
    decreases |s|
  {
    if |s| > 0 {
      var rest := Split(s[1..], sep);
      JoinSplit(s[1..], sep);
      if s[0] == sep {
        assert Split(s, sep) == [""] + rest;
        assert ([""] + rest)[1..] == rest;
        assert s == [sep] + s[1..];
      } else if |rest| == 1 {
        assert Split(s, sep) == [[s[0]] + rest[0]];
        assert s == [s[0]] + s[1..];
      } else {
        var r := Split(s, sep);
        assert r == [[s[0]] + rest[0]] + rest[1..];
        assert r[1..] == rest[1..];
        calc {
          Join(r, sep);
          ([s[0]] + rest[0]) + [sep] + Join(rest[1..], sep);
          [s[0]] + (rest[0] + [sep] + Join(rest[1..], sep));
          [s[0]] + Join(rest, sep);
          [s[0]] + s[1..];
          s;
        }
      }
    }
  }

  /** A string without the separator is a single field. */
  lemma {:induction false} SplitWithoutSeparator(s: string, sep: char)
    requires sep !in s
    ensures Split(s, sep) == [s]
    decreases |s|
  {
    if |s| > 0 {
      SplitWithoutSeparator(s[1..], sep);
      assert s == [s[0]] + s[1..];
    }
  }

  /** A separator after a separator-free head cuts off exactly that head as the first field. */
  lemma {:induction false} SplitAfterHead(head: string, sep: char, tail: string)
    requires sep !in head
    ensures Split(head + [sep] + tail, sep) == [head] + Split(tail, sep)
    decreases |head|
  {
    var s := head + [sep] + tail;
    if |head| == 0 {
      assert s == [sep] + tail;
      assert s[1..] == tail;
    } else {
      assert s[1..] == head[1..] + [sep] + tail;
      SplitAfterHead(head[1..], sep, tail);
      assert [head[0]] + head[1..] == head;
    }
  }

  // ---------------------------------------------------------------------
  // JavaScript's String.prototype.trim
  // ---------------------------------------------------------------------

  /**
   * The characters `trim` removes: ECMAScript WhiteSpace (tab, vertical tab,
   * form feed, space, no-break space, byte order mark and the Unicode space
   * separators) and LineTerminator (line feed, carriage return, line and
   * paragraph separators).
   */
  predicate IsWhitespace(c: char) {
    || c == '\t' || c == '\n' || c == '\U{000B}' || c == '\U{000C}' || c == '\r'
    || c == ' ' || c == '\U{00A0}' || c == '\U{1680}'
    || ('\U{2000}' <= c <= '\U{200A}')
    || c == '\U{2028}' || c == '\U{2029}' || c == '\U{202F}' || c == '\U{205F}'
    || c == '\U{3000}' || c == '\U{FEFF}'
  }

  /** Every character of `s` is whitespace. */
  ghost predicate AllWhitespace(s: string) {
    forall i :: 0 <= i < |s| ==> IsWhitespace(s[i])
  }

  /** `trimStart`: a suffix of `s` that is empty or starts with a non-whitespace character. */
  function TrimStart(s: string): (r: string)
    ensures |r| <= |s| && r == s[|s| - |r|..]
    ensures |r| == 0 || !IsWhitespace(r[0])
    ensures AllWhitespace(s[..|s| - |r|])
    decreases |s|
  {
    if |s| > 0 && IsWhitespace(s[0]) then TrimStart(s[1..]) else s
  }

  /** `trimEnd`: a prefix of `s` that is empty or ends with a non-whitespace character. */
  function TrimEnd(s: string): (r: string)
    ensures |r| <= |s| && r == s[..|r|]
    ensures |r| == 0 || !IsWhitespace(r[|r| - 1])
    ensures AllWhitespace(s[|r|..])
    decreases |s|
  {
    if |s| > 0 && IsWhitespace(s[|s| - 1]) then TrimEnd(s[..|s| - 1]) else s
  }

  /** `s.trim()`. */
  function Trim(s: string): string {
    TrimEnd(TrimStart(s))
  }

  /** `trim` gives the empty string exactly for the all-whitespace strings. */
  lemma TrimEmptyIffBlank(s: string)
    ensures Trim(s) == "" <==> AllWhitespace(s)
  {
    var t := TrimStart(s);
    assert s == s[..|s| - |t|] + t;
    assert t[0..] == t;
  }

  // ---------------------------------------------------------------------
  // JavaScript's s.replace(/x/g, y) for a single character
  // ---------------------------------------------------------------------

  /** Replace every occurrence of the character `from` by `to`. */
  function ReplaceAll(s: string, from: char, to: char): (r: string)
    ensures |r| == |s|
    ensures forall i :: 0 <= i < |s| ==> r[i] == (if s[i] == from then to else s[i])
    decreases |s|
  {
    if |s| == 0 then ""
    else [if s[0] == from then to else s[0]] + ReplaceAll(s[1..], from, to)
  }

  // ---------------------------------------------------------------------
  // Decimal rendering of a non-negative integer (`${n}`)
  // ---------------------------------------------------------------------

  predicate IsDigit(c: char) {
    '0' <= c <= '9'
  }

  function DigitChar(d: nat): (c: char)
    requires d < 10
  {
    (d + '0' as int) as char
  }

  function DigitValue(c: char): nat
    requires IsDigit(c)
  {
    c as int - '0' as int
  }

  /** The shortest decimal numeral of `n`: non-empty and made of digits only. */
  function Decimal(n: nat): (r: string)
    ensures |r| >= 1
    ensures forall i :: 0 <= i < |r| ==> IsDigit(r[i])
    ensures r[0] == '0' ==> n == 0
    decreases n
  {
    if n < 10 then [DigitChar(n)] else Decimal(n / 10) + [DigitChar(n % 10)]
  }

  /** Reads a numeral of digits back into a number. */
  function ParseDecimal(s: string): nat
    requires forall i :: 0 <= i < |s| ==> IsDigit(s[i])
    decreases |s|
  {
    if |s| == 0 then 0 else ParseDecimal(s[..|s| - 1]) * 10 + DigitValue(s[|s| - 1])
  }

  /** Rendering a number and reading it back gives the number: `Decimal` is injective. */
  lemma {:induction false} ParseDecimalInverse(n: nat)
    ensures ParseDecimal(Decimal(n)) == n
    decreases n
  {
    var r := Decimal(n);
    if n >= 10 {
      ParseDecimalInverse(n / 10);
      assert r[..|r| - 1] == Decimal(n / 10);
    }
  }
}

=== FILE: wrappers.dfy ===
/** Small value wrappers shared by every module of the model. */
module Wrappers {

  /** An optional value: `None` where the source has no value at all. */
  datatype Option<+T> = None | Some(value: T)

  /** A computation that either yields a value or fails with an error. */
  datatype Result<+R, +E> = Ok(value: R) | Err(error: E)

  /**
   * A JavaScript scalar as the client sees it: `undefined`, `null`, or a
   * string. Numbers, booleans, arrays and objects are not modelled.
   */
  datatype JsValue = Undefined | Null | Str(s: string) {

    /** JavaScript truthiness: only a non-empty string is truthy. */
    predicate Truthy() {
      Str? && s != ""
    }

    /** `String(v)`, the coercion `localStorage.setItem` applies to its value. */
    function ToText(): string
    {
      match this
      case Undefined => "undefined"
      case Null => "null"
      case Str(x) => x
    }
  }

  /** The value of `obj[key]` for a JSON object: `undefined` when the key is absent. */
  function Field(obj: map<string, JsValue>, key: string): JsValue
  {
    if key in obj then obj[key] else Undefined
  }
}
